=== FILE: README.md ===
# cdx-component playground: a Dafny model of the store, the codec and the CDN helpers

This project models the core of the cdx-component playground, a Vue REPL. The model has three parts.

- **The playground state store** (`src/composables/store.ts`) is modelled as a record. It holds:
  - the files, each with its code and a `hidden` flag;
  - the dependency versions;
  - the main file and the active file.

  The store's behaviour becomes pure transitions on that record:
  - `wrapFilename`;
  - the bootstrap file set and default versions;
  - the watcher that regenerates `src/setup.js` by putting the CDN stylesheet URL in place of `$STYLE`;
  - `setVersion`;
  - the import-map entry for the component library;
  - `serialize` and `deserialize` of the whole state through the URL fragment;
  - store creation, where the watcher runs, `location.hash` is read, and the watcher runs again.
- **The Unicode-safe codec** (`src/utils/encode.ts`):
  - `utoa` is UTF-8 encoding (section 3 of RFC 3629, through the `encodeURIComponent`/`unescape` pair) followed by Base64 (section 4 of RFC 4648).
  - `atou` is its inverse.
  - JavaScript strings are sequences of UTF-16 code units. Encoding fails on a lone surrogate. Decoding fails on text that is not Base64 and on bytes that are not UTF-8.
- **The CDN helpers** (`src/utils/cdn.ts`):
  - the three URL templates;
  - `getCdnUrl`, which replaces placeholders in order, each at its first occurrence;
  - the selected CDN and its persisted setting;
  - the textual version filter of `getCdxComponentVersions`.

The modules follow that structure:
- `Common`: Option, Result, bytes and code units.
- `Text`: first-occurrence search and replace, and JavaScript string comparison.
- `Base64`, `Utf8` and `Codec`.
- `Cdn`.
- `Store`.

The following are parameters of the model, not part of it:
- JSON text: a `parse`/`stringify` pair of functions. The round trips assume that the pair is lossless on every object of the shape `serialize` writes: a versions table and no file entry named `__versions`.
- The template texts.
- The selected CDN.
- The base import map from the REPL library.
- The initial main and active file names.

## Model

| member | source | states |
|---|---|---|
| Text.IndexOf | src/utils/cdn.ts:24 | The search inside `String.replace`: the result is the first index at which the pattern occurs, and nothing is returned exactly when the pattern does not occur. |
| Text.ReplaceFirst | src/utils/cdn.ts:24 | `replace` with a string pattern: only the first occurrence is replaced, by the replacement text. A string without the pattern is returned unchanged. |
| Text.ReplaceAfter | src/composables/store.ts:82 | When the text before a pattern's first copy holds no copy, replacing the pattern in `a + pat + b` gives `a + rep + b`. |
| Text.LexLessMeaning | src/utils/cdn.ts:41 | JavaScript `<` on strings holds exactly when the left side is a proper prefix of the right, or the first difference has the smaller character on the left. |
| Text.PrefixBefore | src/utils/cdn.ts:41 | `split('-')[0]`: a prefix of the input with no `-` in it, followed in the input by `-` when it is shorter than the input. |
| Base64.Encode | src/utils/encode.ts:1 | `btoa` output has length 4·⌈n/3⌉ and uses only the Base64 alphabet and `=`. |
| Base64.DecodeEncode | src/utils/encode.ts:1-2 | Decoding the encoding of any byte string gives back that byte string. |
| Base64.DecodeRejectsForeign | src/utils/encode.ts:2 | A character outside the alphabet, other than `=`, anywhere in the input makes decoding fail. |
| Base64.DecodeRejectsRagged | src/utils/encode.ts:2 | An input whose length is not a multiple of four is rejected. |
| Base64.DecodedLength | src/utils/encode.ts:2 | A decodable input is exactly as long as the encoding of its bytes. |
| Utf8.EncodeSucceedsIffWellFormed | src/utils/encode.ts:1 | `encodeURIComponent` succeeds exactly on strings without a lone surrogate. |
| Utf8.EncodeAscii | src/utils/encode.ts:1 | For ASCII text, the UTF-8 bytes are the character codes, one byte per character. |
| Utf8.DecodeEncode | src/utils/encode.ts:1-2 | Every well-formed string encodes, and decoding its UTF-8 gives it back. |
| Utf8.DecodeWellFormed | src/utils/encode.ts:2 | What `decodeURIComponent(escape(...))` produces never holds a lone surrogate. |
| Utf8.EncodeDecode | src/utils/encode.ts:1-2 | Bytes that decode are exactly the encoding of what they decode to, so UTF-8 has one form per string: no overlong forms, no surrogates, nothing above U+10FFFF. |
| Codec.Utoa | src/utils/encode.ts:1 | `utoa` fails exactly on a lone surrogate. Its output is in the Base64 alphabet, is 4·⌈n/3⌉ long for n UTF-8 bytes, and Base64-decodes to the UTF-8 of the input. |
| Codec.Atou | src/utils/encode.ts:2 | `atou` fails as invalid Base64 exactly when `atob` does. Any other failure is the UTF-8 error. A successful result is well-formed and its UTF-8 is the decoded bytes. |
| Codec.AtouAccepts | src/utils/encode.ts:2 | Any Base64 text whose bytes are the UTF-8 of a well-formed string decodes to that string, whether `utoa` wrote it or not. |
| Codec.RoundTrip | src/utils/encode.ts:1-2 | `atou(utoa(s)) == s` for every well-formed string. |
| Codec.AsciiIsPlainBase64 | src/utils/encode.ts:1 | For ASCII input, `utoa` is plain Base64 of the character codes. |
| Codec.EmptyString | src/utils/encode.ts:1-2 | `utoa("") == ""` and `atou("") == ""`. |
| Codec.InvalidUtf8Rejected | src/utils/encode.ts:2 | `atou("/w==")` decodes as Base64 to the byte 0xFF, which is not UTF-8, and fails with the UTF-8 error. |
| Cdn.TemplateShape | src/utils/cdn.ts:6-10 | Exactly `unpkg`, `jsdelivr` and `elemecdn` are known, and each has its literal template text. The three texts, the origins and the known names come from one table. |
| Cdn.GetCdnUrl | src/utils/cdn.ts:21-25 | A URL is produced exactly for the three known CDN names. Any other name fails with that name as the error. |
| Cdn.UrlShape | src/utils/cdn.ts:21-24 | For a known CDN, the URL is the origin followed by `/` + pkg + `@` + version + `/` + path. This needs the package to hold no `{version}` or `{path}` and the version to hold no `{path}`. |
| Cdn.PackageCapturesVersion | src/utils/cdn.ts:24 | Replacement runs in order, so a package named `{version}` receives the version while the template's own `{version}` slot stays in the URL. |
| Cdn.MissingVersionIsLatest | src/utils/cdn.ts:21 | An omitted version is `latest`. |
| Cdn.LoadSetting | src/utils/cdn.ts:3-4 | The initial CDN is the stored setting when it is present and non-empty, and otherwise `unpkg`. It is never empty. |
| Cdn.SetCdn | src/utils/cdn.ts:16-19 | After `setCdn(n)`, `getCdn()` is n and storage holds n. |
| Cdn.SetCdnPersists | src/utils/cdn.ts:3-19 | A choice survives a reload, except the empty name, which reloads as `unpkg`. |
| Cdn.FilterComponentVersions | src/utils/cdn.ts:40-42 | A version is kept exactly when its text before the first `-` is not below `0.0.7` in string order. |
| Cdn.FilterKeepsOrder | src/utils/cdn.ts:41 | Filtering distributes over concatenation, so kept versions stay in their original order. |
| Cdn.DoubleDigitPatchDropped | src/utils/cdn.ts:41 | `0.0.10` is dropped, because the comparison is textual and not semantic. |
| Cdn.MinimumKept | src/utils/cdn.ts:41 | `0.0.7` itself is kept. |
| Cdn.PreReleaseKept | src/utils/cdn.ts:41 | `0.0.8-beta.1` is kept, because only the text before `-` is compared. |
| Store.WrapFilename | src/composables/store.ts:91-96 | A name is left unchanged exactly when it is `import-map.json`, `tsconfig.json` or starts with `src/`. Otherwise it gets `src/` in front. The result is always such a name. |
| Store.WrapFilenameIdempotent | src/composables/store.ts:91-96 | Wrapping twice is wrapping once. |
| Store.Bootstrap | src/composables/store.ts:25-47 | The initial state has exactly four files: `tsconfig.json` hidden, `src/App.vue` visible, `src/setup.js` hidden, `src/main.vue` hidden. Versions are exactly `cdx-component: latest`, `vue: 3.3.11` and `typescript: latest`, with no other package, unless the caller supplies versions, which then replace them whole. |
| Store.OverrideIsNotMerged | src/composables/store.ts:26-35 | A caller's versions without the component library leave its version undefined: the defaults are not merged in. |
| Store.Regenerate | src/composables/store.ts:77-88 | The watcher succeeds exactly for a known CDN. It rewrites only `src/setup.js`, and leaves it hidden. Every other file, the versions, the main file and the active file are unchanged. |
| Store.ComponentUrlShape | src/composables/store.ts:82 | The component-library URL is the CDN origin, `/cdx-component@`, the version or `latest`, `/` and the path. |
| Store.RegeneratedSetup | src/composables/store.ts:80-84 | The new setup file is the template with its first `$STYLE` replaced by the theme stylesheet URL of the current version. |
| Store.SetVersion | src/composables/store.ts:139-141 | `setVersion` sets the named package and leaves every other package and every file untouched. |
| Store.UpdateVersion | src/composables/store.ts:77-141 | After `setVersion`, the setup file is regenerated exactly when the component library's version changed. Otherwise the result is exactly `setVersion`'s: only the one version entry changes, and the files, the main file and the active file stay as they were. |
| Store.NewComponentVersionInSetup | src/composables/store.ts:77-141 | Moving the component library to a new version puts that version's stylesheet URL into the setup file. |
| Store.BuiltinImportMap | src/composables/store.ts:48-56 | The REPL's import map is kept, with one entry added for the component library. Scopes and every other import are unchanged. |
| Store.ImportMapNamesVersion | src/composables/store.ts:51 | The component-library import points at `index.esm.js` of the current version on the selected CDN. |
| Store.Serialize | src/composables/store.ts:97-107 | The wire object maps every file name except `__versions` to its code, and carries the versions. |
| Store.FileFields | src/composables/store.ts:120-127 | A truthy `__versions` is removed before the entries are read as files, and every other entry is kept. A falsy one stays: the entries are then the whole object. |
| Store.LoadedEntries | src/composables/store.ts:127-130 | Each entry is stored under `wrapFilename` of its key, with its own content. |
| Store.MergeVersions | src/composables/store.ts:120-124 | Loading versions overwrites exactly the packages it names and keeps every other one. |
| Store.LoadFiles | src/composables/store.ts:127-130 | Loaded files are new and visible, other files are kept, and no file is removed. |
| Store.HideGenerated | src/composables/store.ts:131-132 | Only `src/main.vue` and `src/setup.js` are forced hidden. Codes and the other flags are unchanged. |
| Store.Apply | src/composables/store.ts:120-137 | After loading: versions are merged key by key; every loaded entry is at its wrapped name with its content; loaded files are visible except the two generated ones; absent files are kept; no file is removed; the main file is `src/main.vue` and the active file `src/App.vue`. |
| Store.ApplySerialized | src/composables/store.ts:97-130 | Reading a serialised state into any state restores every file's code and every version, provided each file name is a fixed point of `wrapFilename`. |
| Store.SerializeIdempotent | src/composables/store.ts:97-137 | Serialise, load into the same state, serialise again: the same wire object. |
| Store.StripHash | src/composables/store.ts:109-111 | One leading `#`, and only one, is removed. |
| Store.ReadFragment | src/composables/store.ts:112-119 | A fragment that is not Base64 fails as such. A successful read is the parse of text whose UTF-8 is the decoded bytes. |
| Store.ReadFragmentAccepts | src/composables/store.ts:109-119 | A fragment, hand-written or not, that is Base64 of the UTF-8 of a well-formed text is read as that text: it loads the parsed object when the text parses, and otherwise fails as unparsable. |
| Store.Deserialize | src/composables/store.ts:108-137 | When decoding or parsing fails, the state is unchanged. Otherwise the loaded object is applied. The generated files exist and stay hidden, and the file names stay canonical. |
| Store.SerializeFragment | src/composables/store.ts:97-107 | The fragment is `#` followed by Base64 that decodes to the UTF-8 of the JSON text. It fails only on a lone surrogate in that text. |
| Store.FragmentRoundTrip | src/composables/store.ts:97-119 | With lossless JSON, the fragment `serialize` writes reads back as the object it serialised. |
| Store.DeserializeRestores | src/composables/store.ts:97-137 | With lossless JSON, `deserialize(serialize())` into any state restores every file's code and every version. |
| Store.FragmentIdempotent | src/composables/store.ts:97-138 | With lossless JSON, serialise, deserialise, serialise gives the same fragment. |
| Store.EmptyFragmentKeepsState | src/composables/store.ts:109-119 | The empty hash, with or without its `#`, leaves the state unchanged, because `JSON.parse("")` throws. |
| Store.SecondHashKeepsState | src/composables/store.ts:109-119 | Only one `#` is stripped. A second one is not Base64, so the state is unchanged. |
| Store.FalsyVersionsBecomesFile | src/composables/store.ts:120-130 | A falsy `__versions` is not consumed: it loads as the visible file `src/__versions`, and the versions stay as they were. |
| Store.Boot | src/composables/store.ts:42-89 | After the watcher's immediate run, the four bootstrap files exist. `src/setup.js` is hidden and regenerated. `tsconfig.json`, `src/App.vue` and `src/main.vue` keep their bootstrap code and flags. The versions are the bootstrap ones. This succeeds exactly for a known CDN. |
| Store.Settle | src/composables/store.ts:77-89 | The watcher after a flush that wrote the component version at most once: it regenerates the setup file exactly when that version differs from the one it last ran for. Versions, the generated files and canonical names are preserved. |
| Store.Startup | src/composables/store.ts:77-147 | Store creation succeeds exactly for a known CDN and keeps the generated files present and hidden. A hash that does not load leaves the store exactly as booted. When it loads: the versions are the bootstrap ones merged with the loaded ones; the main file is `src/main.vue` and the active file `src/App.vue`; the files are the four bootstrap files plus the loaded entries; every loaded file other than `src/setup.js` has its loaded code and is visible unless it is `src/main.vue`; and every bootstrap file the hash does not name is as booted. |
| Store.LoadHash | src/composables/store.ts:108-147 | `deserialize(location.hash)` followed by the watcher: a hash that does not load leaves the store unchanged. One that loads merges the versions, resets main and active, puts each loaded entry other than the setup file in place with its flag, and leaves every unnamed file as it was. |
| Store.LoadThenSettle | src/composables/store.ts:77-137 | Loading an object and then letting the watcher run: versions are merged and main and active are reset. No file is lost. Every loaded file except `src/setup.js` has its loaded code and is visible unless it is `src/main.vue`. Every other file keeps its code and its flag, and `src/main.vue` is hidden. |
| Store.SettleKeepsSetupCurrent | src/composables/store.ts:77-89 | The watcher keeps the setup file current. If the setup file was current when the watcher last saw the version, it carries the stylesheet URL of the version in force after the watcher runs. |
| Store.LoadKeepsSetup | src/composables/store.ts:108-137 | When loading a hash leaves the component version unchanged and the hash supplies the setup file only together with a version change, the setup file stays current. |
| Store.StartupSetupCurrent | src/composables/store.ts:77-147 | After store creation, the setup file is the template with its first `$STYLE` replaced by the stylesheet URL of the component version in force. Two provisos apply. First, the hash supplies `src/setup.js` (or `setup.js`) only together with a change of the component version, which makes the watcher overwrite it. Second, neither the bootstrap component version nor one the hash supplies contains `{path}`. |

## Left out

- Vue reactivity is not modelled: `reactive`, `ref`, `computed`, `watch` with `immediate`/`deep`, and `watchEffect`. The watcher becomes explicit calls to `Regenerate`/`Settle`, and `serialize` becomes an explicit call. The model assumes that the flushed watcher sees only the final value of a change.
- The `@vue/repl` calls are not modelled: `useStore`, `useVueImportMap`, `File` and `setActive`. `compileFile` is a no-op. Compiled output is not part of a file. The base import map, the initial main file and the initial active file are parameters.
- The browser is not modelled:
  - `location.hash` and `history.replaceState`: the fragment is a parameter, and the writing-back is left out;
  - `localStorage`: the stored CDN setting is a value in `CdnSetting`;
  - `fetch` in `getVersions` and its wrappers: only the filter predicate is modelled;
  - `console.error`.
- JSON text, including formatting and key order, is not modelled. `parse` and `stringify` are parameters. JSON values other than an object of strings with an optional versions object are outside `Wire`. Such values are handled as follows:
  - A `null` top level makes `saved.__versions` throw outside the `try`. This case is not modelled.
  - A number or boolean top level has no `__versions` and no entries. It loads no file, and the generated files are still hidden and the main and active files reset, as for the empty object `Wire(map[], None)`.
  - A string or array top level loads one file per index through `Object.entries`: `"ab"` loads `src/0` holding `a` and `src/1` holding `b`. `parse` can represent it as the `Wire` of those index entries. Array elements that are not strings are not modelled.
  - File values that are not strings, and a truthy `__versions` that is not an object, such as a non-empty string, are not modelled.
- Strings in the store are sequences of Unicode scalar values (Dafny `string`): file names, file texts, package names and versions. JavaScript strings are UTF-16 code units, as the codec models them. So a file text holding a lone surrogate is outside the model of the store. The source allows such a text, and `JSON.stringify` writes it as a `\u` escape, so its fragment still encodes.
- The template texts of `src/template/` are parameters. `src/template/setup.js` and `src/main.ts` run in the browser and are not part of this model.
- `getCdnUrl` reads the selected CDN from module state. In the model it is an explicit parameter. An unknown CDN has no template: the source throws a TypeError, and the model returns `UnknownCdn`.
- Text.ReplaceFirst: `$` patterns in the replacement text (`$&`, `$1` and so on) are not expanded. The model inserts the replacement text literally, so stylesheet URLs or versions containing `$` are not modelled faithfully.
- Store.LoadedEntries: when one wire object carries both `X` and `src/X`, JavaScript keeps whichever comes later in the object's key order. The model has no key order and keeps `src/X`.
- Store.Bootstrap: passing `versions: undefined` explicitly spreads to an empty versions object in JavaScript. In the model the option is either absent, giving the defaults, or a map.
- Text.LexLessMeaning: JavaScript compares UTF-16 code units, and Dafny's `char` compares code points. The two orders differ only between characters above U+FFFF and those in U+E000–U+FFFF, which do not occur in version strings.
- Base64.Decode: only the strict form of section 4 of RFC 4648 is accepted. Input must be whole four-character groups, with padding only at the end. `atob`'s forgiving decoding, which skips ASCII whitespace and accepts missing padding, is not modelled, so some fragments that the browser accepts are rejected by the model. Leftover bits in a padded group are not checked, as in `atob`.
- Store.StartupSetupCurrent: excludes two kinds of start. (1) A hash that supplies `src/setup.js` or `setup.js` while leaving the component version as it was. The watcher then does not run again, the loaded setup text stands as in the source, and the property is false there. (2) A bootstrap component version, or one supplied by the hash, that contains `{path}`. The third replacement in `getCdnUrl` then hits the version's `{path}` instead of the template's, and the URL is not the plain concatenation. A hash that supplies the setup file and changes the version is covered, because the watcher overwrites the file.
- Store.MergeVersions: a `__versions` entry named `__proto__` is assigned in JavaScript through the `Object.prototype.__proto__` setter. For a string value that setter does nothing, so the source drops the entry. The model merges it as an ordinary package. This depends on whether the versions object already has an own `__proto__` property, which the caller's spread can create, and that is not modelled.
- Store.SetVersion: `setVersion('__proto__', v)` likewise goes to the prototype setter in JavaScript and does nothing. The model records the package. Packages named `__proto__` are not modelled.
- Store.Settle: the watcher is created with `deep: true`. Vue then runs its callback whenever the job runs, without comparing the old and new values. So writing the component version and writing it back before a flush still rewrites `src/setup.js`, while `Settle` compares values and does not. No modelled operation writes the version twice before a flush.

=== FILE: base64.dfy ===
/** Base64 with the standard alphabet and `=` padding (section 4 of RFC 4648),
    as `btoa` and `atob` apply it to a byte string. */
module Base64 {
  import opened Common

  /** The pad character `=`. */
  const Padding: CodeUnit := '=' as int

  /** The 64 characters of the alphabet: `A`-`Z`, `a`-`z`, `0`-`9`, `+`, `/`. */
  predicate IsAlphabet(u: CodeUnit) {
    || ('A' as int <= u <= 'Z' as int)
    || ('a' as int <= u <= 'z' as int)
    || ('0' as int <= u <= '9' as int)
    || u == '+' as int
    || u == '/' as int
  }

  /** The character that encodes the 6-bit value `v` (Table 1 of RFC 4648). */
  function CharOf(v: int): (u: CodeUnit)
    requires 0 <= v < 64
    ensures IsAlphabet(u)
  {
    if v < 26 then 'A' as int + v
    else if v < 52 then 'a' as int + (v - 26)
    else if v < 62 then '0' as int + (v - 52)
    else if v == 62 then '+' as int
    else '/' as int
  }

  /** The 6-bit value an alphabet character stands for. */
  function ValueOf(u: CodeUnit): (v: int)
    requires IsAlphabet(u)
    ensures 0 <= v < 64 && CharOf(v) == u
  {
    if 'A' as int <= u <= 'Z' as int then u - 'A' as int
    else if 'a' as int <= u <= 'z' as int then u - 'a' as int + 26
    else if '0' as int <= u <= '9' as int then u - '0' as int + 52
    else if u == '+' as int then 62
    else 63
  }

  lemma ValueOfCharOf(v: int)
    requires 0 <= v < 64
    ensures ValueOf(CharOf(v)) == v
  {
  }

  /** Three bytes, 24 bits, as four characters. */
  function EncodeTriple(b0: Byte, b1: Byte, b2: Byte): seq<CodeUnit> {
    [CharOf(b0 / 4), CharOf((b0 % 4) * 16 + b1 / 16), CharOf((b1 % 16) * 4 + b2 / 64), CharOf(b2 % 64)]
  }

  /** A final single byte: two characters and two pads. */
  function EncodeSingle(b0: Byte): seq<CodeUnit> {
    [CharOf(b0 / 4), CharOf((b0 % 4) * 16), Padding, Padding]
  }

  /** A final pair of bytes: three characters and one pad. */
  function EncodeDouble(b0: Byte, b1: Byte): seq<CodeUnit> {
    [CharOf(b0 / 4), CharOf((b0 % 4) * 16 + b1 / 16), CharOf((b1 % 16) * 4), Padding]
  }

  /** `btoa`: the final one or two bytes are zero-extended and padded with `=`. */
  function Encode(b: seq<Byte>): (r: seq<CodeUnit>)
    ensures |r| == 4 * ((|b| + 2) / 3)
    ensures forall i :: 0 <= i < |r| ==> IsAlphabet(r[i]) || r[i] == Padding
    decreases |b|
  {
    if |b| == 0 then []
    else if |b| == 1 then EncodeSingle(b[0])
    else if |b| == 2 then EncodeDouble(b[0], b[1])
    else EncodeTriple(b[0], b[1], b[2]) + Encode(b[3..])
  }

  /** The three bytes carried by four 6-bit values. */
  function Bytes(v0: int, v1: int, v2: int, v3: int): seq<Byte>
    requires 0 <= v0 < 64 && 0 <= v1 < 64 && 0 <= v2 < 64 && 0 <= v3 < 64
  {
    [v0 * 4 + v1 / 16, (v1 % 16) * 16 + v2 / 4, (v2 % 4) * 64 + v3]
  }

  /** One group of four characters. Padding is accepted only in the final
      group (`last`): `xyz=` carries two bytes and `xy==` one. */
  function DecodeGroup(g: seq<CodeUnit>, last: bool): (r: Option<seq<Byte>>)
    requires |g| == 4
    ensures r.Some? ==> |r.value| == 3 || (last && 1 <= |r.value| <= 2)
  {
    if IsAlphabet(g[0]) && IsAlphabet(g[1]) && IsAlphabet(g[2]) && IsAlphabet(g[3]) then
      Some(Bytes(ValueOf(g[0]), ValueOf(g[1]), ValueOf(g[2]), ValueOf(g[3])))
    else if last && IsAlphabet(g[0]) && IsAlphabet(g[1]) && IsAlphabet(g[2]) && g[3] == Padding then
      Some(Bytes(ValueOf(g[0]), ValueOf(g[1]), ValueOf(g[2]), 0)[..2])
    else if last && IsAlphabet(g[0]) && IsAlphabet(g[1]) && g[2] == Padding && g[3] == Padding then
      Some(Bytes(ValueOf(g[0]), ValueOf(g[1]), 0, 0)[..1])
    else None
  }

  /** `atob` in its strict form: the input is a whole number of four-character
      groups; anything else is rejected. */
  function Decode(s: seq<CodeUnit>): Option<seq<Byte>>
    decreases |s|
  {
    if |s| == 0 then Some([])
    else if |s| < 4 then None
    else
      var group :- DecodeGroup(s[..4], |s| == 4);
      var rest :- Decode(s[4..]);
      Some(group + rest)
  }

  /** An input that is not a whole number of groups is rejected. */
  lemma {:induction false} DecodeRejectsRagged(s: seq<CodeUnit>)
    requires |s| % 4 != 0
    ensures Decode(s).None?
    decreases |s|
  {
    if |s| > 4 {
      DecodeRejectsRagged(s[4..]);
    }
  }

  /** What decodes is exactly as long as the encoding of what it decodes to. */
  lemma {:induction false} DecodedLength(s: seq<CodeUnit>)
    requires Decode(s).Some?
    ensures |s| == 4 * ((|Decode(s).value| + 2) / 3)
    decreases |s|
  {
    if |s| > 0 {
      var group := DecodeGroup(s[..4], |s| == 4).value;
      if |s| > 4 {
        DecodedLength(s[4..]);
        var n := |Decode(s[4..]).value|;
        assert (3 + n + 2) / 3 == (n + 2) / 3 + 1;
      }
    }
  }

  lemma SplitJoin(b0: Byte, b1: Byte, b2: Byte)
    ensures Bytes(b0 / 4, (b0 % 4) * 16 + b1 / 16, (b1 % 16) * 4 + b2 / 64, b2 % 64) == [b0, b1, b2]
  {
  }

  lemma SplitJoinDouble(b0: Byte, b1: Byte)
    ensures Bytes(b0 / 4, (b0 % 4) * 16 + b1 / 16, (b1 % 16) * 4, 0)[..2] == [b0, b1]
  {
  }

  lemma SplitJoinSingle(b0: Byte)
    ensures Bytes(b0 / 4, (b0 % 4) * 16, 0, 0)[..1] == [b0]
  {
  }

  lemma TripleGroup(b0: Byte, b1: Byte, b2: Byte, last: bool)
    ensures DecodeGroup(EncodeTriple(b0, b1, b2), last) == Some([b0, b1, b2])
  {
    ValueOfCharOf(b0 / 4);
    ValueOfCharOf((b0 % 4) * 16 + b1 / 16);
    ValueOfCharOf((b1 % 16) * 4 + b2 / 64);
    ValueOfCharOf(b2 % 64);
    SplitJoin(b0, b1, b2);
  }

  lemma FinalGroups(b0: Byte, b1: Byte)
    ensures DecodeGroup(EncodeSingle(b0), true) == Some([b0])
    ensures DecodeGroup(EncodeDouble(b0, b1), true) == Some([b0, b1])
  {
    ValueOfCharOf(b0 / 4);
    ValueOfCharOf((b0 % 4) * 16);
    ValueOfCharOf((b0 % 4) * 16 + b1 / 16);
    ValueOfCharOf((b1 % 16) * 4);
    SplitJoinSingle(b0);
    SplitJoinDouble(b0, b1);
  }

  /** Decoding proceeds group by group. */
  lemma DecodeCons(g: seq<CodeUnit>, rest: seq<CodeUnit>, bytes: seq<Byte>)
    requires |g| == 4 && DecodeGroup(g, rest == []) == Some(bytes) && Decode(rest).Some?
    ensures Decode(g + rest) == Some(bytes + Decode(rest).value)
  {
    var s := g + rest;
    assert s[..4] == g && s[4..] == rest;
  }

  lemma DecodeEncodeSingle(b0: Byte)
    ensures Decode(EncodeSingle(b0)) == Some([b0])
  {
    FinalGroups(b0, 0);
    DecodeCons(EncodeSingle(b0), [], [b0]);
    assert Decode([]) == Some([]);
    assert EncodeSingle(b0) + [] == EncodeSingle(b0) && [b0] + [] == [b0];
  }

  lemma DecodeEncodeDouble(b0: Byte, b1: Byte)
    ensures Decode(EncodeDouble(b0, b1)) == Some([b0, b1])
  {
    FinalGroups(b0, b1);
    DecodeCons(EncodeDouble(b0, b1), [], [b0, b1]);
    assert Decode([]) == Some([]);
    assert EncodeDouble(b0, b1) + [] == EncodeDouble(b0, b1) && [b0, b1] + [] == [b0, b1];
  }

  /** Every byte string survives encoding followed by decoding. */
  lemma {:induction false} DecodeEncode(b: seq<Byte>)
    ensures Decode(Encode(b)) == Some(b)
    decreases |b|
  {
    if |b| < 3 {
      DecodeEncodeShort(b);
    } else {
      DecodeEncode(b[3..]);
      DecodeEncodeTriple(b[0], b[1], b[2], b[3..]);
      assert b == [b[0], b[1], b[2]] + b[3..];
    }
  }

  lemma DecodeEncodeShort(b: seq<Byte>)
    requires |b| < 3
    ensures Decode(Encode(b)) == Some(b)
  {
    if |b| == 0 {
      assert Encode(b) == [];
    } else if |b| == 1 {
      DecodeEncodeOne(b);
    } else {
      DecodeEncodeTwo(b);
    }
  }

  lemma DecodeEncodeOne(b: seq<Byte>)
    requires |b| == 1
    ensures Decode(Encode(b)) == Some(b)
  {
    assert Encode(b) == EncodeSingle(b[0]);
    DecodeEncodeSingle(b[0]);
    assert b == [b[0]];
  }

  lemma DecodeEncodeTwo(b: seq<Byte>)
    requires |b| == 2
    ensures Decode(Encode(b)) == Some(b)
  {
    assert Encode(b) == EncodeDouble(b[0], b[1]);
    DecodeEncodeDouble(b[0], b[1]);
    assert b == [b[0], b[1]];
  }

  /** A leading triple decodes in front of whatever the rest decodes to. */
  lemma DecodeEncodeTriple(b0: Byte, b1: Byte, b2: Byte, tail: seq<Byte>)
    requires Decode(Encode(tail)) == Some(tail)
    ensures Decode(Encode([b0, b1, b2] + tail)) == Some([b0, b1, b2] + tail)
  {
    var b := [b0, b1, b2] + tail;
    assert b[3..] == tail && b[0] == b0 && b[1] == b1 && b[2] == b2;
    var rest := Encode(tail);
    TripleGroup(b0, b1, b2, rest == []);
    DecodeCons(EncodeTriple(b0, b1, b2), rest, [b0, b1, b2]);
  }

  /** A character outside the alphabet and other than `=` anywhere in the
      input makes decoding fail. */
  lemma {:induction false} DecodeRejectsForeign(s: seq<CodeUnit>, i: int)
    requires 0 <= i < |s| && !IsAlphabet(s[i]) && s[i] != Padding
    ensures Decode(s).None?
    decreases |s|
  {
    if 4 < |s| && 4 <= i {
      DecodeRejectsForeign(s[4..], i - 4);
    }
  }
}

=== FILE: cdn.dfy ===
/** src/utils/cdn.ts: the CDN URL templates, the selected CDN and its
    persisted setting, and the filter on component-library versions. */
module Cdn {
  import opened Common
  import opened Text

  const DefaultCdn := "unpkg"
  const DefaultVersion := "latest"

  /** The origin of each known CDN: its template up to the `/` before
      `{pkg}`. This is the one list of known CDNs. */
  function OriginOf(cdn: string): Option<string> {
    if cdn == "unpkg" then Some("https://unpkg.com")
    else if cdn == "jsdelivr" then Some("https://fastly.jsdelivr.net/npm")
    else if cdn == "elemecdn" then Some("https://npm.elemecdn.com")
    else None
  }

  /** The URL template of each known CDN. */
  function Template(cdn: string): Option<string> {
    match OriginOf(cdn)
    case None => None
    case Some(o) => Some(o + "/{pkg}@{version}/{path}")
  }

  predicate IsKnown(cdn: string) {
    Template(cdn).Some?
  }

  /** The part of a template before the `/` that precedes `{pkg}`. */
  function Origin(cdn: string): (o: string)
    requires IsKnown(cdn)
    ensures '{' !in o
    ensures Template(cdn) == Some(o + "/{pkg}@{version}/{path}")
  {
    OriginOf(cdn).value
  }

  /** Reading a property that is not in the table gives `undefined`, and
      calling `replace` on it throws. */
  datatype CdnError = UnknownCdn(name: string)

  /** `getCdnUrl(pkg, path, version)` under the current CDN `cdn`; a missing
      version is `latest`. The placeholders are replaced in the order `{pkg}`,
      `{version}`, `{path}`, each at its first occurrence in the text built so far. */
  function GetCdnUrl(cdn: string, pkg: string, path: string, version: Option<string>): (r: Result<string, CdnError>)
    ensures r.Ok? <==> IsKnown(cdn)
    ensures r.Err? ==> r.error == UnknownCdn(cdn)
  {
    match Template(cdn)
    case None => Err(UnknownCdn(cdn))
    case Some(template) =>
      var v := match version case Some(v) => v case None => DefaultVersion;
      Ok(ReplaceFirst(ReplaceFirst(ReplaceFirst(template, "{pkg}", pkg), "{version}", v), "{path}", path))
  }

  /** The table of templates: exactly three names are known, each with its
      literal template text. */
  lemma TemplateShape(cdn: string)
    ensures IsKnown(cdn) <==> cdn == "unpkg" || cdn == "jsdelivr" || cdn == "elemecdn"
    ensures Template("unpkg") == Some("https://unpkg.com/{pkg}@{version}/{path}")
    ensures Template("jsdelivr") == Some("https://fastly.jsdelivr.net/npm/{pkg}@{version}/{path}")
    ensures Template("elemecdn") == Some("https://npm.elemecdn.com/{pkg}@{version}/{path}")
  {
    assert "https://unpkg.com" + "/{pkg}@{version}/{path}" == "https://unpkg.com/{pkg}@{version}/{path}";
    assert "https://fastly.jsdelivr.net/npm" + "/{pkg}@{version}/{path}"
        == "https://fastly.jsdelivr.net/npm/{pkg}@{version}/{path}";
    assert "https://npm.elemecdn.com" + "/{pkg}@{version}/{path}" == "https://npm.elemecdn.com/{pkg}@{version}/{path}";
  }

  /** Step one: `{pkg}` is found right after the origin and its slash. */
  lemma PackageStep(o: string, pkg: string)
    requires '{' !in o
    ensures ReplaceFirst(o + "/{pkg}@{version}/{path}", "{pkg}", pkg) == o + "/" + pkg + "@{version}/{path}"
  {
    assert "/{pkg}@{version}/{path}" == "/" + "{pkg}" + "@{version}/{path}";
    assert o + "/{pkg}@{version}/{path}" == o + "/" + "{pkg}" + "@{version}/{path}";
    MissingLeadExcludes(o, "{pkg}");
    JoinExcludes(o, '/', "", "{pkg}");
    assert o + ['/'] + "" == o + "/";
    ReplaceAfter(o + "/", "{pkg}", "@{version}/{path}", pkg);
  }

  /** Step two: `{version}` is found right after `pkg@`. */
  lemma VersionStep(o: string, pkg: string, v: string)
    requires '{' !in o && !Contains(pkg, "{version}")
    ensures ReplaceFirst(o + "/" + pkg + "@{version}/{path}", "{version}", v) == o + "/" + pkg + "@" + v + "/{path}"
  {
    var a := o + "/" + pkg + "@";
    MissingLeadExcludes(o, "{version}");
    JoinExcludes(o, '/', pkg, "{version}");
    JoinExcludes(o + "/" + pkg, '@', "", "{version}");
    assert a == o + "/" + pkg + ['@'] + "";
    assert "@{version}/{path}" == "@" + "{version}" + "/{path}";
    assert o + "/" + pkg + "@{version}/{path}" == a + "{version}" + "/{path}";
    ReplaceAfter(a, "{version}", "/{path}", v);
  }

  /** Step three: `{path}` is found right after `version/`. */
  lemma PathStep(o: string, pkg: string, v: string, path: string)
    requires '{' !in o && !Contains(pkg, "{path}") && !Contains(v, "{path}")
    ensures ReplaceFirst(o + "/" + pkg + "@" + v + "/{path}", "{path}", path) == o + "/" + pkg + "@" + v + "/" + path
  {
    var a := o + "/" + pkg + "@" + v + "/";
    MissingLeadExcludes(o, "{path}");
    JoinExcludes(o, '/', pkg, "{path}");
    JoinExcludes(o + "/" + pkg, '@', v, "{path}");
    JoinExcludes(o + "/" + pkg + "@" + v, '/', "", "{path}");
    assert a == o + "/" + pkg + "@" + v + ['/'] + "";
    assert "/{path}" == "/" + "{path}";
    assert o + "/" + pkg + "@" + v + "/{path}" == a + "{path}" + "";
    ReplaceAfter(a, "{path}", "", path);
  }

  /** The URL is the CDN origin, then `/pkg@version/path`, as long as the
      package name holds no `{version}` or `{path}` and the version no `{path}`. */
  lemma UrlShape(cdn: string, pkg: string, path: string, v: string)
    requires IsKnown(cdn)
    requires !Contains(pkg, "{version}") && !Contains(pkg, "{path}") && !Contains(v, "{path}")
    ensures GetCdnUrl(cdn, pkg, path, Some(v)) == Ok(Origin(cdn) + "/" + pkg + "@" + v + "/" + path)
  {
    var o := Origin(cdn);
    PackageStep(o, pkg);
    VersionStep(o, pkg, v);
    PathStep(o, pkg, v, path);
  }

  lemma VersionSlotHoldsNoPath()
    ensures !Contains("{version}/", "{path}")
  {
    var s := "{version}/";
    forall i | 0 <= i ensures !OccursAt(s, "{path}", i) {
      if i + 6 <= |s| {
        if i == 0 {
          assert s[i..i + 6][1] == 'v';
        } else {
          assert s[i..i + 6][0] == s[i] != '{';
        }
      }
    }
  }

  /** With `{version}` as the package name, step two replaces that copy. */
  lemma CapturedVersionStep(o: string, v: string)
    requires '{' !in o
    ensures ReplaceFirst(o + "/" + "{version}" + "@{version}/{path}", "{version}", v) == o + "/" + v + "@{version}/{path}"
  {
    MissingLeadExcludes(o, "{version}");
    JoinExcludes(o, '/', "", "{version}");
    assert o + "/" == o + ['/'] + "";
    ReplaceAfter(o + "/", "{version}", "@{version}/{path}", v);
  }

  /** Step three then finds `{path}` after the untouched `{version}` slot. */
  lemma CapturedPathStep(o: string, v: string, path: string)
    requires '{' !in o && !Contains(v, "{path}")
    ensures ReplaceFirst(o + "/" + v + "@{version}/{path}", "{path}", path) == o + "/" + v + "@{version}/" + path
  {
    var a := o + "/" + v + "@{version}/";
    MissingLeadExcludes(o, "{path}");
    JoinExcludes(o, '/', v, "{path}");
    VersionSlotHoldsNoPath();
    JoinExcludes(o + "/" + v, '@', "{version}/", "{path}");
    assert a == o + "/" + v + ['@'] + "{version}/";
    assert o + "/" + v + "@{version}/{path}" == a + "{path}" + "";
    ReplaceAfter(a, "{path}", "", path);
  }

  /** The placeholders are replaced in order, so a package name that is
      itself `{version}` takes the version, and the real `{version}` slot
      stays in the URL. */
  lemma PackageCapturesVersion(cdn: string, path: string, v: string)
    requires IsKnown(cdn) && !Contains(v, "{path}")
    ensures GetCdnUrl(cdn, "{version}", path, Some(v)) == Ok(Origin(cdn) + "/" + v + "@{version}/" + path)
  {
    var o := Origin(cdn);
    PackageStep(o, "{version}");
    CapturedVersionStep(o, v);
    CapturedPathStep(o, v, path);
  }

  /** Leaving the version out is the same as asking for `latest`. */
  lemma MissingVersionIsLatest(cdn: string, pkg: string, path: string)
    ensures GetCdnUrl(cdn, pkg, path, None) == GetCdnUrl(cdn, pkg, path, Some(DefaultVersion))
  {
  }

  /** The selected CDN and the value kept in browser storage under
      `cdn-setting`. */
  datatype CdnSetting = CdnSetting(current: string, stored: Option<string>)

  /** The setting at page load: the stored name, unless it is missing or
      empty (JavaScript's `||`), in which case `unpkg`. */
  function LoadSetting(stored: Option<string>): (s: CdnSetting)
    ensures s.stored == stored
    ensures s.current != ""
    ensures stored.Some? && stored.value != "" ==> s.current == stored.value
    ensures s.current == DefaultCdn || stored == Some(s.current)
  {
    CdnSetting(if stored.Some? && stored.value != "" then stored.value else DefaultCdn, stored)
  }

  function GetCdn(s: CdnSetting): string {
    s.current
  }

  /** `setCdn(name)`: selects `name` and writes it to storage. */
  function SetCdn(s: CdnSetting, name: string): (r: CdnSetting)
    ensures GetCdn(r) == name && r.stored == Some(name)
  {
    CdnSetting(name, Some(name))
  }

  /** A choice survives a reload, except the empty name, which reloads as
      `unpkg`. */
  lemma SetCdnPersists(s: CdnSetting, name: string)
    ensures GetCdn(LoadSetting(SetCdn(s, name).stored)) == if name == "" then DefaultCdn else name
  {
  }

  const MinimumComponentVersion := "0.0.7"

  /** The test inside `getCdxComponentVersions`:
      `v.split('-')[0] >= '0.0.7'` as a string comparison. */
  predicate IsListedComponentVersion(v: string) {
    !LexLess(PrefixBefore(v, '-'), MinimumComponentVersion)
  }

  /** The versions offered for the component library, in their original order. */
  function FilterComponentVersions(vs: seq<string>): (r: seq<string>)
    ensures forall v :: v in r <==> v in vs && IsListedComponentVersion(v)
    ensures |r| <= |vs|
    decreases |vs|
  {
    if |vs| == 0 then []
    else if IsListedComponentVersion(vs[0]) then [vs[0]] + FilterComponentVersions(vs[1..])
    else FilterComponentVersions(vs[1..])
  }

  /** Filtering keeps the relative order: it distributes over concatenation. */
  lemma {:induction false} FilterKeepsOrder(a: seq<string>, b: seq<string>)
    ensures FilterComponentVersions(a + b) == FilterComponentVersions(a) + FilterComponentVersions(b)
    decreases |a|
  {
    if |a| > 0 {
      assert (a + b)[1..] == a[1..] + b;
      FilterKeepsOrder(a[1..], b);
    } else {
      assert a + b == b;
    }
  }

  /** The comparison is on text, not on version numbers: `0.0.10` sorts below
      `0.0.7` and is dropped. */
  lemma DoubleDigitPatchDropped()
    ensures !IsListedComponentVersion("0.0.10")
  {
    assert PrefixBefore("0.0.10", '-') == "0.0.10";
  }

  lemma MinimumKept()
    ensures IsListedComponentVersion("0.0.7")
  {
    assert PrefixBefore("0.0.7", '-') == "0.0.7";
  }

  /** A pre-release suffix is cut at the first `-` before comparing. */
  lemma PreReleaseKept()
    ensures IsListedComponentVersion("0.0.8-beta.1")
  {
    var v := "0.0.8-beta.1";
    assert v[5..] == "-beta.1" && PrefixBefore(v[5..], '-') == "";
    assert PrefixBefore(v, '-') == "0.0.8";
    assert !LexLess("0.0.8", MinimumComponentVersion);
  }
}

=== FILE: codec.dfy ===
/** `utoa` and `atou` of src/utils/encode.ts: Unicode-safe Base64 of a
    JavaScript string, by way of its UTF-8 bytes. */
module Codec {
  import opened Common
  import Base64
  import Utf8

  datatype CodecError =
    | LoneSurrogate  // `encodeURIComponent` throws
    | InvalidBase64  // `atob` throws
    | InvalidUtf8    // `decodeURIComponent` throws

  /** `btoa(unescape(encodeURIComponent(s)))`. */
  function Utoa(s: seq<CodeUnit>): (r: Result<seq<CodeUnit>, CodecError>)
    ensures r.Ok? <==> Utf8.WellFormed(s)
    ensures r.Err? ==> r.error == LoneSurrogate
    ensures r.Ok? ==> forall i :: 0 <= i < |r.value| ==> Base64.IsAlphabet(r.value[i]) || r.value[i] == Base64.Padding
    ensures r.Ok? ==> Base64.Decode(r.value) == Utf8.Encode(s)
    ensures Utf8.Encode(s).Some? ==> r.Ok? && |r.value| == 4 * ((|Utf8.Encode(s).value| + 2) / 3)
  {
    Utf8.EncodeSucceedsIffWellFormed(s);
    match Utf8.Encode(s)
    case None => Err(LoneSurrogate)
    case Some(bytes) =>
      Base64.DecodeEncode(bytes);
      Ok(Base64.Encode(bytes))
  }

  /** `decodeURIComponent(escape(atob(t)))`. */
  function Atou(t: seq<CodeUnit>): (r: Result<seq<CodeUnit>, CodecError>)
    ensures Base64.Decode(t).None? <==> r == Err(InvalidBase64)
    ensures r.Err? && Base64.Decode(t).Some? ==> r.error == InvalidUtf8
    ensures r.Ok? ==> Utf8.WellFormed(r.value)
    ensures r.Ok? ==> Utf8.Encode(r.value) == Base64.Decode(t)
  {
    match Base64.Decode(t)
    case None => Err(InvalidBase64)
    case Some(bytes) =>
      match Utf8.Decode(bytes)
      case None => Err(InvalidUtf8)
      case Some(s) =>
        Utf8.DecodeWellFormed(bytes);
        Utf8.EncodeDecode(bytes);
        Ok(s)
  }

  /** `atou(utoa(s)) == s` for every well-formed string. */
  lemma RoundTrip(s: seq<CodeUnit>)
    requires Utf8.WellFormed(s)
    ensures Utoa(s).Ok? && Atou(Utoa(s).value) == Ok(s)
  {
    Utf8.DecodeEncode(s);
    Base64.DecodeEncode(Utf8.Encode(s).value);
  }

  /** Any Base64 text whose bytes are the UTF-8 of a well-formed string is
      accepted, and decodes to that string, whoever produced it. */
  lemma AtouAccepts(t: seq<CodeUnit>, s: seq<CodeUnit>)
    requires Utf8.WellFormed(s) && Utf8.Encode(s) == Base64.Decode(t)
    ensures Atou(t) == Ok(s)
  {
    Utf8.DecodeEncode(s);
  }

  /** On ASCII text `utoa` is plain Base64 of the characters. */
  lemma AsciiIsPlainBase64(s: seq<CodeUnit>)
    requires forall i :: 0 <= i < |s| ==> s[i] < 0x80
    ensures Utoa(s) == Ok(Base64.Encode(s))
  {
    Utf8.EncodeAscii(s);
  }

  lemma EmptyString()
    ensures Utoa([]) == Ok([]) && Atou([]) == Ok([])
  {
  }

  /** `/w==` is valid Base64 for the single byte 0xFF, which is never valid
      UTF-8: `atou` fails at the second stage. */
  lemma InvalidUtf8Rejected()
    ensures Atou(['/' as int, 'w' as int, '=' as int, '=' as int]) == Err(InvalidUtf8)
  {
    var t: seq<CodeUnit> := ['/' as int, 'w' as int, '=' as int, '=' as int];
    assert Base64.Decode(t) == Some([0xFF]) by {
      assert Base64.IsAlphabet(t[0]) && Base64.IsAlphabet(t[1]) && !Base64.IsAlphabet(t[2]);
      assert t[2] == Base64.Padding && t[3] == Base64.Padding;
      assert Base64.ValueOf(t[0]) == 63 && Base64.ValueOf(t[1]) == 48;
      assert Base64.Bytes(63, 48, 0, 0)[..1] == [0xFF];
      assert Base64.DecodeGroup(t, true) == Some([0xFF]);
      assert Base64.Decode([]) == Some([]);
      assert [0xFF] + [] == [0xFF];
      assert t[..4] == t && t[4..] == [];
    }
  }
}

=== FILE: common.dfy ===
/** Shared vocabulary: optional values, results with an error channel, and the
    integer ranges that stand for bytes and JavaScript string code units. */
module Common {

  /** A byte, as produced by UTF-8 encoding and consumed by Base64. */
  type Byte = x: int | 0 <= x < 0x100

  /** One UTF-16 code unit; a JavaScript string is a sequence of these. */
  type CodeUnit = x: int | 0 <= x < 0x1_0000

  datatype Option<+T> = None | Some(value: T) {
    predicate IsFailure() { None? }

    function PropagateFailure<U>(): Option<U>
      requires None?
    {
      None
    }

    function Extract(): T
      requires Some?
    {
      value
    }

    /** The value, or `default` in its absence (JavaScript's `x ?? default`). */
    function GetOr(default: T): T {
      if Some? then value else default
    }
  }

  datatype Result<+T, +E> = Ok(value: T) | Err(error: E) {
    predicate IsFailure() { Err? }

    function PropagateFailure<U>(): Result<U, E>
      requires Err?
    {
      Err(error)
    }

    function Extract(): T
      requires Ok?
    {
      value
    }
  }

  /** The value stored under `k`, if any (a JavaScript property read that may
      give `undefined`). */
  function Lookup<K, V>(m: map<K, V>, k: K): Option<V> {
    if k in m then Some(m[k]) else None
  }
}

=== FILE: store.dfy ===
/** The playground state store of src/composables/store.ts: the file set, the
    dependency versions, the generated setup file, and the URL-fragment form
    of the whole state. Vue reactivity is replaced by explicit transitions
    that return a new state. */
module Store {
  import opened Common
  import opened Text
  import Cdn
  import Codec
  import Utf8
  import Base64

  const ImportMapFile := "import-map.json"
  const TsConfigFile := "tsconfig.json"
  const SetupFile := "src/setup.js"
  const MainFile := "src/main.vue"
  const AppFile := "src/App.vue"
  const SourceDir := "src/"

  /** The reserved key of the wire object that carries the versions. */
  const VersionsKey := "__versions"

  /** The component library whose version drives the setup file. */
  const ComponentLibrary := "cdx-component"
  const StylePlaceholder := "$STYLE"
  const ThemeStylesheet := "theme/index.css"
  const ComponentEntry := "index.esm.js"

  const DefaultVersions: map<string, string> :=
    map["cdx-component" := "latest", "vue" := "3.3.11", "typescript" := "latest"]

  /** A file of the REPL: its source text and whether the editor hides it.
      The compiled form is not modelled. */
  datatype File = File(code: string, hidden: bool)

  /** The text of the bootstrap templates: tsconfig.json, welcome.vue,
      setup.js (holding the `$STYLE` placeholder) and main.vue. */
  datatype Templates = Templates(tsConfig: string, welcome: string, setup: string, main: string)

  datatype State = State(
    files: map<string, File>,
    versions: map<string, string>,
    mainFile: string,
    active: string)

  /** The generated files are present; deserialisation writes their `hidden`
      flag and would throw without them. */
  predicate Valid(st: State) {
    MainFile in st.files && SetupFile in st.files
  }

  /** A name `wrapFilename` leaves as it is. */
  predicate IsCanonical(name: string) {
    name == ImportMapFile || name == TsConfigFile || SourceDir <= name
  }

  predicate AllCanonical(st: State) {
    forall p :: p in st.files ==> IsCanonical(p)
  }

  /** `wrapFilename`: puts a name under `src/` unless it is already there or
      is one of the two configuration files. */
  function WrapFilename(name: string): (r: string)
    ensures IsCanonical(r)
    ensures r == name <==> IsCanonical(name)
    ensures r == name || r == SourceDir + name
  {
    if IsCanonical(name) then name else SourceDir + name
  }

  lemma WrapFilenameIdempotent(name: string)
    ensures WrapFilename(WrapFilename(name)) == WrapFilename(name)
  {
  }

  /** `versions['cdx-component']`; absent when a caller's versions left it out. */
  function ComponentVersion(versions: map<string, string>): Option<string> {
    Lookup(versions, ComponentLibrary)
  }

  /** The state before the first regeneration: the four bootstrap files and
      the versions. Caller-supplied versions replace the defaults as a whole.
      `mainFile` and `active` are whatever the REPL library starts with. */
  function Bootstrap(versionsOption: Option<map<string, string>>, t: Templates, mainFile: string, active: string): (st: State)
    ensures st.files.Keys == {TsConfigFile, AppFile, SetupFile, MainFile}
    ensures st.files[TsConfigFile] == File(t.tsConfig, true)
    ensures st.files[AppFile] == File(t.welcome, false)
    ensures st.files[SetupFile] == File(t.setup, true)
    ensures st.files[MainFile] == File(t.main, true)
    ensures versionsOption.None? ==>
              (ComponentVersion(st.versions) == Some("latest") && Lookup(st.versions, "vue") == Some("3.3.11")
               && Lookup(st.versions, "typescript") == Some("latest")
               && st.versions.Keys == {ComponentLibrary, "vue", "typescript"})
    ensures versionsOption.Some? ==> st.versions == versionsOption.value
    ensures Valid(st) && AllCanonical(st)
  {
    var versions := match versionsOption case Some(v) => v case None => DefaultVersions;
    State(
      map[TsConfigFile := File(t.tsConfig, true), AppFile := File(t.welcome, false),
          SetupFile := File(t.setup, true), MainFile := File(t.main, true)],
      versions, mainFile, active)
  }

  /** Caller-supplied versions are not merged with the defaults: leaving out
      the component library leaves its version undefined. */
  lemma OverrideIsNotMerged(versions: map<string, string>, t: Templates, mainFile: string, active: string)
    requires ComponentLibrary !in versions
    ensures ComponentVersion(Bootstrap(Some(versions), t, mainFile, active).versions) == None
  {
  }

  /** The stylesheet URL of the current component-library version. */
  function StylesheetUrl(versions: map<string, string>, cdn: string): Result<string, Cdn.CdnError> {
    Cdn.GetCdnUrl(cdn, ComponentLibrary, ThemeStylesheet, ComponentVersion(versions))
  }

  /** The watcher body: `src/setup.js` becomes the setup template with its
      first `$STYLE` replaced by the stylesheet URL, and is hidden. */
  function Regenerate(st: State, setupTemplate: string, cdn: string): (r: Result<State, Cdn.CdnError>)
    ensures r.Ok? <==> Cdn.IsKnown(cdn)
    ensures r.Ok? ==> r.value.files.Keys == st.files.Keys + {SetupFile}
    ensures r.Ok? ==> r.value.files[SetupFile].hidden
    ensures r.Ok? ==> forall p :: p in st.files && p != SetupFile ==> r.value.files[p] == st.files[p]
    ensures r.Ok? ==> r.value.versions == st.versions && r.value.mainFile == st.mainFile && r.value.active == st.active
    ensures r.Ok? && Valid(st) ==> Valid(r.value)
    ensures r.Ok? && AllCanonical(st) ==> AllCanonical(r.value)
  {
    var url :- StylesheetUrl(st.versions, cdn);
    Ok(st.(files := st.files[SetupFile := File(ReplaceFirst(setupTemplate, StylePlaceholder, url), true)]))
  }

  /** Where a file of the component library at `version` lives on a CDN. */
  function ComponentFileUrl(cdn: string, version: string, path: string): string
    requires Cdn.IsKnown(cdn)
  {
    Cdn.Origin(cdn) + "/" + ComponentLibrary + "@" + version + "/" + path
  }

  /** The version the CDN URLs name: `latest` when none is set. */
  function EffectiveVersion(versions: map<string, string>): string {
    ComponentVersion(versions).GetOr(Cdn.DefaultVersion)
  }

  lemma LibraryNameHasNoPlaceholder()
    ensures !Contains(ComponentLibrary, "{version}") && !Contains(ComponentLibrary, "{path}")
  {
    MissingLeadExcludes(ComponentLibrary, "{version}");
    MissingLeadExcludes(ComponentLibrary, "{path}");
  }

  lemma ComponentUrlShape(versions: map<string, string>, cdn: string, path: string)
    requires Cdn.IsKnown(cdn)
    requires !Contains(EffectiveVersion(versions), "{path}")
    ensures Cdn.GetCdnUrl(cdn, ComponentLibrary, path, ComponentVersion(versions))
         == Ok(ComponentFileUrl(cdn, EffectiveVersion(versions), path))
  {
    LibraryNameHasNoPlaceholder();
    var v := EffectiveVersion(versions);
    Cdn.UrlShape(cdn, ComponentLibrary, path, v);
    if ComponentVersion(versions).None? {
      Cdn.MissingVersionIsLatest(cdn, ComponentLibrary, path);
    }
  }

  /** The regenerated setup file holds the template with its first `$STYLE`
      replaced by the theme stylesheet URL of the current version. */
  lemma RegeneratedSetup(st: State, before: string, after: string, cdn: string)
    requires Cdn.IsKnown(cdn)
    requires !Contains(before, StylePlaceholder) && (|before| > 0 ==> before[|before| - 1] !in StylePlaceholder)
    requires !Contains(EffectiveVersion(st.versions), "{path}")
    ensures Regenerate(st, before + StylePlaceholder + after, cdn).Ok?
    ensures Regenerate(st, before + StylePlaceholder + after, cdn).value.files[SetupFile].code
         == before + ComponentFileUrl(cdn, EffectiveVersion(st.versions), ThemeStylesheet) + after
  {
    ComponentUrlShape(st.versions, cdn, ThemeStylesheet);
    ReplaceAfter(before, StylePlaceholder, after, ComponentFileUrl(cdn, EffectiveVersion(st.versions), ThemeStylesheet));
  }

  /** `setVersion(pkg, version)`: overwrites one entry and nothing else. */
  function SetVersion(st: State, pkg: string, version: string): (r: State)
    ensures Lookup(r.versions, pkg) == Some(version)
    ensures forall p :: p != pkg ==> Lookup(r.versions, p) == Lookup(st.versions, p)
    ensures r.files == st.files && r.mainFile == st.mainFile && r.active == st.active
  {
    st.(versions := st.versions[pkg := version])
  }

  /** `setVersion` followed by the watcher: the setup file is regenerated
      exactly when the component-library version changes. */
  function UpdateVersion(st: State, pkg: string, version: string, setupTemplate: string, cdn: string): (r: Result<State, Cdn.CdnError>)
    ensures r.Ok? ==> r.value.versions == st.versions[pkg := version]
    ensures ComponentVersion(st.versions[pkg := version]) == ComponentVersion(st.versions) ==>
              r == Ok(SetVersion(st, pkg, version))
    ensures ComponentVersion(st.versions[pkg := version]) != ComponentVersion(st.versions) ==>
              r == Regenerate(SetVersion(st, pkg, version), setupTemplate, cdn)
  {
    var next := SetVersion(st, pkg, version);
    if ComponentVersion(next.versions) != ComponentVersion(st.versions) then Regenerate(next, setupTemplate, cdn)
    else Ok(next)
  }

  /** Moving the component library to a new version rewrites the stylesheet
      URL of the setup file to that version. */
  lemma NewComponentVersionInSetup(st: State, version: string, before: string, after: string, cdn: string)
    requires Cdn.IsKnown(cdn)
    requires !Contains(before, StylePlaceholder) && (|before| > 0 ==> before[|before| - 1] !in StylePlaceholder)
    requires !Contains(version, "{path}") && ComponentVersion(st.versions) != Some(version)
    ensures UpdateVersion(st, ComponentLibrary, version, before + StylePlaceholder + after, cdn).Ok?
    ensures UpdateVersion(st, ComponentLibrary, version, before + StylePlaceholder + after, cdn).value.files[SetupFile].code
         == before + ComponentFileUrl(cdn, version, ThemeStylesheet) + after
  {
    var next := SetVersion(st, ComponentLibrary, version);
    assert EffectiveVersion(next.versions) == version;
    RegeneratedSetup(next, before, after, cdn);
  }

  /** The import map handed to the REPL: the library's map with the
      component library's entry pointing at its ES module on the CDN. */
  datatype ImportMap = ImportMap(imports: map<string, string>, scopes: map<string, map<string, string>>)

  function BuiltinImportMap(base: ImportMap, versions: map<string, string>, cdn: string): (r: Result<ImportMap, Cdn.CdnError>)
    ensures r.Ok? <==> Cdn.IsKnown(cdn)
    ensures r.Ok? ==> r.value.scopes == base.scopes
    ensures r.Ok? ==> r.value.imports.Keys == base.imports.Keys + {ComponentLibrary}
    ensures r.Ok? ==> forall k :: k in base.imports && k != ComponentLibrary ==> r.value.imports[k] == base.imports[k]
  {
    var url :- Cdn.GetCdnUrl(cdn, ComponentLibrary, ComponentEntry, ComponentVersion(versions));
    Ok(ImportMap(base.imports[ComponentLibrary := url], base.scopes))
  }

  lemma ImportMapNamesVersion(base: ImportMap, versions: map<string, string>, cdn: string)
    requires Cdn.IsKnown(cdn)
    requires !Contains(EffectiveVersion(versions), "{path}")
    ensures BuiltinImportMap(base, versions, cdn).Ok?
    ensures BuiltinImportMap(base, versions, cdn).value.imports[ComponentLibrary] == ComponentFileUrl(cdn, EffectiveVersion(versions), ComponentEntry)
  {
    ComponentUrlShape(versions, cdn, ComponentEntry);
  }

  /** The object `serialize` hands to `JSON.stringify`, and the object
      `JSON.parse` gives back: the file entries and `__versions`. A falsy
      `__versions` is kept as an ordinary entry with `versions` absent. */
  datatype Wire = Wire(fields: map<string, string>, versions: Option<map<string, string>>)

  /** Each file's code under its name, then the versions under `__versions`,
      which overrides a file of that name. */
  function Serialize(st: State): (w: Wire)
    ensures w.versions == Some(st.versions)
    ensures w.fields.Keys == st.files.Keys - {VersionsKey}
    ensures forall p :: p in w.fields ==> w.fields[p] == st.files[p].code
  {
    Wire(map p | p in st.files && p != VersionsKey :: st.files[p].code, Some(st.versions))
  }

  /** The entries `deserialize` turns into files: a truthy `__versions` has
      been consumed and deleted. */
  function FileFields(w: Wire): (m: map<string, string>)
    ensures w.versions.Some? ==> VersionsKey !in m
    ensures w.versions.None? ==> m == w.fields
    ensures forall k :: k in w.fields && k != VersionsKey ==> k in m && m[k] == w.fields[k]
    ensures forall k :: k in m ==> k in w.fields
  {
    if w.versions.Some? then w.fields - {VersionsKey} else w.fields
  }

  lemma WrappedFromSource(fields: map<string, string>, p: string)
    requires p in (set k | k in fields :: WrapFilename(k)) && p !in fields
    ensures SourceDir <= p && p[|SourceDir|..] in fields && WrapFilename(p[|SourceDir|..]) == p
  {
    var k :| k in fields && WrapFilename(k) == p;
    assert p == SourceDir + k;
    assert p[|SourceDir|..] == k;
  }

  /** The files an entry map loads, keyed by `wrapFilename` of the entry
      name. When both `X` and `src/X` are present the model keeps `src/X`. */
  function LoadedEntries(fields: map<string, string>): (m: map<string, string>)
    ensures m.Keys == set k | k in fields :: WrapFilename(k)
    ensures forall k :: k in fields && (IsCanonical(k) || SourceDir + k !in fields) ==> m[WrapFilename(k)] == fields[k]
  {
    map p | p in (set k | k in fields :: WrapFilename(k)) ::
      if p in fields then fields[p]
      else WrappedFromSource(fields, p); fields[p[|SourceDir|..]]
  }

  /** `versions[name] = version` for every entry of a truthy `__versions`. */
  function MergeVersions(versions: map<string, string>, incoming: Option<map<string, string>>): (r: map<string, string>)
    ensures forall pkg :: Lookup(r, pkg)
              == (if incoming.Some? && pkg in incoming.value then Some(incoming.value[pkg]) else Lookup(versions, pkg))
  {
    if incoming.Some? then versions + incoming.value else versions
  }

  /** `files.value[filename] = new File(filename, code)` for every loaded
      entry: a new file is visible. */
  function LoadFiles(files: map<string, File>, loaded: map<string, string>): (r: map<string, File>)
    ensures r.Keys == files.Keys + loaded.Keys
    ensures forall p :: p in loaded ==> r[p] == File(loaded[p], false)
    ensures forall p :: p in files && p !in loaded ==> r[p] == files[p]
  {
    files + map p | p in loaded :: File(loaded[p], false)
  }

  /** Hides `src/main.vue` and `src/setup.js` again. */
  function HideGenerated(files: map<string, File>): (r: map<string, File>)
    requires MainFile in files && SetupFile in files
    ensures r.Keys == files.Keys
    ensures forall p :: p in files ==>
              r[p].code == files[p].code && r[p].hidden == (files[p].hidden || p == MainFile || p == SetupFile)
  {
    var files := files[MainFile := files[MainFile].(hidden := true)];
    files[SetupFile := files[SetupFile].(hidden := true)]
  }

  /** The state after `deserialize` has read the object `w`: versions are
      merged key by key, every entry becomes a visible file under its wrapped
      name, the generated files are hidden again, `src/main.vue` is the main
      file and `src/App.vue` the active one. */
  function Apply(st: State, w: Wire): (r: State)
    requires Valid(st)
    ensures Valid(r)
    ensures r.mainFile == MainFile && r.active == AppFile
    ensures r.versions == MergeVersions(st.versions, w.versions)
    ensures r.files.Keys == st.files.Keys + LoadedEntries(FileFields(w)).Keys
    ensures forall k :: k in FileFields(w) && (IsCanonical(k) || SourceDir + k !in FileFields(w)) ==>
              r.files[WrapFilename(k)].code == FileFields(w)[k]
    ensures forall p :: p in LoadedEntries(FileFields(w)) ==>
              r.files[p].code == LoadedEntries(FileFields(w))[p]
              && r.files[p].hidden == (p == MainFile || p == SetupFile)
    ensures forall p :: p in st.files && p !in LoadedEntries(FileFields(w)) ==>
              r.files[p].code == st.files[p].code
              && r.files[p].hidden == (st.files[p].hidden || p == MainFile || p == SetupFile)
    ensures r.files[MainFile].hidden && r.files[SetupFile].hidden
    ensures AllCanonical(st) ==> AllCanonical(r)
  {
    var loaded := LoadedEntries(FileFields(w));
    var files := LoadFiles(st.files, loaded);
    State(HideGenerated(files), MergeVersions(st.versions, w.versions), MainFile, AppFile)
  }

  /** Reading a serialised state back restores every file's code and every
      version, whatever state it is read into. */
  lemma ApplySerialized(st: State, other: State)
    requires Valid(other) && AllCanonical(st)
    ensures Apply(other, Serialize(st)).files.Keys == other.files.Keys + st.files.Keys
    ensures forall p :: p in st.files ==> Apply(other, Serialize(st)).files[p].code == st.files[p].code
    ensures forall pkg :: pkg in st.versions ==> Lookup(Apply(other, Serialize(st)).versions, pkg) == Some(st.versions[pkg])
  {
    var w := Serialize(st);
    assert VersionsKey !in st.files by {
      assert !(SourceDir <= VersionsKey) by { assert VersionsKey[0] != SourceDir[0]; }
    }
    assert FileFields(w).Keys == st.files.Keys;
    assert (set k | k in FileFields(w) :: WrapFilename(k)) == st.files.Keys by {
      forall k | k in FileFields(w) ensures WrapFilename(k) == k { }
      forall p | p in st.files ensures p in (set k | k in FileFields(w) :: WrapFilename(k)) {
        assert WrapFilename(p) == p;
      }
    }
    forall p | p in st.files ensures Apply(other, w).files[p].code == st.files[p].code {
      assert WrapFilename(p) == p;
    }
  }

  /** The serialised object depends only on the names, codes and versions. */
  lemma SerializeSeesCodes(a: State, b: State)
    requires a.files.Keys == b.files.Keys && a.versions == b.versions
    requires forall p :: p in a.files ==> a.files[p].code == b.files[p].code
    ensures Serialize(a) == Serialize(b)
  {
    assert Serialize(a).fields == Serialize(b).fields;
  }

  lemma MergeOwnVersions(versions: map<string, string>)
    ensures MergeVersions(versions, Some(versions)) == versions
  {
    assert versions + versions == versions;
  }

  /** Serialising, reading back into the same state and serialising again
      gives the same object. */
  lemma SerializeIdempotent(st: State)
    requires Valid(st) && AllCanonical(st)
    ensures Serialize(Apply(st, Serialize(st))) == Serialize(st)
  {
    var r := Apply(st, Serialize(st));
    ApplySerialized(st, st);
    MergeOwnVersions(st.versions);
    SerializeSeesCodes(r, st);
  }

  const Hash: CodeUnit := '#' as int

  /** Drops one leading `#`, as `location.hash` carries it. */
  function StripHash(fragment: seq<CodeUnit>): (r: seq<CodeUnit>)
    ensures |fragment| > 0 && fragment[0] == Hash ==> [Hash] + r == fragment
    ensures !(|fragment| > 0 && fragment[0] == Hash) ==> r == fragment
  {
    if |fragment| > 0 && fragment[0] == Hash then fragment[1..] else fragment
  }

  /** Why `deserialize` gives up: the text is not Base64 of UTF-8, or not a
      JSON object. */
  datatype LoadError = Undecodable(cause: Codec.CodecError) | Unparsable

  /** The guarded part of `deserialize`: `JSON.parse(atou(fragment))`. */
  function ReadFragment(fragment: seq<CodeUnit>, parse: seq<CodeUnit> -> Option<Wire>): (r: Result<Wire, LoadError>)
    ensures Base64.Decode(StripHash(fragment)).None? ==> r == Err(Undecodable(Codec.InvalidBase64))
    ensures r.Ok? ==> exists text :: Utf8.Encode(text) == Base64.Decode(StripHash(fragment)) && parse(text) == Some(r.value)
  {
    match Codec.Atou(StripHash(fragment))
    case Err(e) => Err(Undecodable(e))
    case Ok(text) =>
      match parse(text)
      case None => Err(Unparsable)
      case Some(w) => Ok(w)
  }

  /** Any fragment, hand-written or not, that is Base64 of the UTF-8 of a
      well-formed text is read as that text: it loads exactly when the text
      parses, and otherwise fails as unparsable. */
  lemma ReadFragmentAccepts(fragment: seq<CodeUnit>, text: seq<CodeUnit>, parse: seq<CodeUnit> -> Option<Wire>)
    requires Utf8.WellFormed(text) && Utf8.Encode(text) == Base64.Decode(StripHash(fragment))
    ensures parse(text).Some? ==> ReadFragment(fragment, parse) == Ok(parse(text).value)
    ensures parse(text).None? ==> ReadFragment(fragment, parse) == Err(Unparsable)
  {
    Codec.AtouAccepts(StripHash(fragment), text);
  }

  /** `deserialize`: a fragment that does not decode leaves the state as it
      was; one that does is applied. */
  function Deserialize(st: State, fragment: seq<CodeUnit>, parse: seq<CodeUnit> -> Option<Wire>): (r: State)
    requires Valid(st)
    ensures Valid(r)
    ensures ReadFragment(fragment, parse).Err? ==> r == st
    ensures ReadFragment(fragment, parse).Ok? ==> r == Apply(st, ReadFragment(fragment, parse).value)
    ensures AllCanonical(st) ==> AllCanonical(r)
    ensures st.files[MainFile].hidden && st.files[SetupFile].hidden ==> r.files[MainFile].hidden && r.files[SetupFile].hidden
  {
    match ReadFragment(fragment, parse)
    case Err(_) => st
    case Ok(w) => Apply(st, w)
  }

  /** `serialize`: `#` followed by the Base64 of the UTF-8 of the JSON text.
      It fails only where `utoa` does, on a lone surrogate in that text. */
  function SerializeFragment(st: State, stringify: Wire -> seq<CodeUnit>): (r: Result<seq<CodeUnit>, Codec.CodecError>)
    ensures r.Ok? <==> Utf8.WellFormed(stringify(Serialize(st)))
    ensures r.Ok? ==> |r.value| > 0 && r.value[0] == Hash
    ensures r.Ok? ==> Base64.Decode(r.value[1..]) == Utf8.Encode(stringify(Serialize(st)))
  {
    var token :- Codec.Utoa(stringify(Serialize(st)));
    assert ([Hash] + token)[1..] == token;
    Ok([Hash] + token)
  }

  /** `JSON.parse` reads back exactly what `JSON.stringify` wrote, and the
      written text is well-formed UTF-16, for every object of the shape
      `serialize` writes: a versions table and no file entry `__versions`. */
  ghost predicate LosslessJson(parse: seq<CodeUnit> -> Option<Wire>, stringify: Wire -> seq<CodeUnit>) {
    forall w: Wire :: VersionsKey !in w.fields && w.versions.Some? ==>
      Utf8.WellFormed(stringify(w)) && parse(stringify(w)) == Some(w)
  }

  /** The fragment `serialize` writes reads back as the object it serialised. */
  lemma FragmentRoundTrip(st: State, parse: seq<CodeUnit> -> Option<Wire>, stringify: Wire -> seq<CodeUnit>)
    requires LosslessJson(parse, stringify)
    ensures SerializeFragment(st, stringify).Ok?
    ensures ReadFragment(SerializeFragment(st, stringify).value, parse) == Ok(Serialize(st))
  {
    var text := stringify(Serialize(st));
    Codec.RoundTrip(text);
    var token := Codec.Utoa(text).value;
    assert StripHash([Hash] + token) == token;
  }

  /** Loading the current fragment into any state restores every file's code
      and every version of the state that wrote it. */
  lemma DeserializeRestores(st: State, other: State, parse: seq<CodeUnit> -> Option<Wire>, stringify: Wire -> seq<CodeUnit>)
    requires LosslessJson(parse, stringify) && Valid(other) && AllCanonical(st)
    ensures SerializeFragment(st, stringify).Ok?
    ensures var r := Deserialize(other, SerializeFragment(st, stringify).value, parse);
      && (forall p :: p in st.files ==> p in r.files && r.files[p].code == st.files[p].code)
      && (forall pkg :: pkg in st.versions ==> Lookup(r.versions, pkg) == Some(st.versions[pkg]))
  {
    FragmentRoundTrip(st, parse, stringify);
    ApplySerialized(st, other);
  }

  /** Serialise, deserialise into the same state, serialise again: the same
      fragment. */
  lemma FragmentIdempotent(st: State, parse: seq<CodeUnit> -> Option<Wire>, stringify: Wire -> seq<CodeUnit>)
    requires LosslessJson(parse, stringify) && Valid(st) && AllCanonical(st)
    ensures SerializeFragment(st, stringify).Ok?
    ensures SerializeFragment(Deserialize(st, SerializeFragment(st, stringify).value, parse), stringify)
         == SerializeFragment(st, stringify)
  {
    FragmentRoundTrip(st, parse, stringify);
    SerializeIdempotent(st);
  }

  /** An empty location hash, with or without its `#`, leaves the state as it
      was when the JSON parser rejects the empty text. */
  lemma EmptyFragmentKeepsState(st: State, parse: seq<CodeUnit> -> Option<Wire>)
    requires Valid(st) && parse([]) == None
    ensures Deserialize(st, [], parse) == st
    ensures Deserialize(st, [Hash], parse) == st
  {
    Codec.EmptyString();
    assert StripHash([Hash]) == [];
  }

  /** Only one `#` is stripped; a second one is not Base64, so the state is
      left as it was. */
  lemma SecondHashKeepsState(st: State, rest: seq<CodeUnit>, parse: seq<CodeUnit> -> Option<Wire>)
    requires Valid(st)
    ensures Deserialize(st, [Hash, Hash] + rest, parse) == st
  {
    var t := StripHash([Hash, Hash] + rest);
    assert t == [Hash] + rest;
    Base64.DecodeRejectsForeign(t, 0);
  }

  /** A falsy `__versions` is not consumed: it loads as the file
      `src/__versions`, and the versions stay as they were. */
  lemma FalsyVersionsBecomesFile(st: State, fields: map<string, string>)
    requires Valid(st) && VersionsKey in fields && SourceDir + VersionsKey !in fields
    ensures SourceDir + VersionsKey in Apply(st, Wire(fields, None)).files
    ensures Apply(st, Wire(fields, None)).files[SourceDir + VersionsKey] == File(fields[VersionsKey], false)
    ensures Apply(st, Wire(fields, None)).versions == st.versions
  {
    assert !IsCanonical(VersionsKey) by { assert VersionsKey[0] != SourceDir[0]; }
  }

  /** The bootstrap state after the watcher's immediate run. */
  function Boot(versionsOption: Option<map<string, string>>, t: Templates, mainFile: string, active: string,
                cdn: string): (r: Result<State, Cdn.CdnError>)
    ensures r.Ok? <==> Cdn.IsKnown(cdn)
    ensures r.Ok? ==> Valid(r.value) && AllCanonical(r.value)
    ensures r.Ok? ==> r.value.files.Keys == {TsConfigFile, AppFile, SetupFile, MainFile}
    ensures r.Ok? ==> r.value.files[SetupFile].hidden && r.value.files[MainFile].hidden
    ensures r.Ok? ==> r.value.mainFile == mainFile && r.value.active == active
    ensures r.Ok? ==> r.value.versions == Bootstrap(versionsOption, t, mainFile, active).versions
    ensures r.Ok? ==> forall p :: p in r.value.files && p != SetupFile ==>
              r.value.files[p] == Bootstrap(versionsOption, t, mainFile, active).files[p]
  {
    Regenerate(Bootstrap(versionsOption, t, mainFile, active), t.setup, cdn)
  }

  /** The watcher once a change that wrote the component library's version
      at most once has been flushed: it runs again only when that version
      differs from the one it last saw. */
  function Settle(seen: Option<string>, st: State, setupTemplate: string, cdn: string): (r: Result<State, Cdn.CdnError>)
    requires Cdn.IsKnown(cdn)
    ensures r.Ok? && r.value.versions == st.versions
    ensures seen == ComponentVersion(st.versions) ==> r.value == st
    ensures seen != ComponentVersion(st.versions) ==> r == Regenerate(st, setupTemplate, cdn)
    ensures Valid(st) ==> Valid(r.value)
    ensures AllCanonical(st) ==> AllCanonical(r.value)
    ensures Valid(st) && st.files[MainFile].hidden && st.files[SetupFile].hidden ==>
              r.value.files[MainFile].hidden && r.value.files[SetupFile].hidden
  {
    if seen != ComponentVersion(st.versions) then Regenerate(st, setupTemplate, cdn) else Ok(st)
  }

  /** `deserialize(location.hash)` on the booted store, then the watcher once
      more when loading changed the component library's version. A hash that
      does not load leaves the store as booted; one that loads puts every
      entry in place and leaves every file it does not name as it was. */
  function LoadHash(booted: State, fragment: seq<CodeUnit>, parse: seq<CodeUnit> -> Option<Wire>,
                    setupTemplate: string, cdn: string): (r: State)
    requires Cdn.IsKnown(cdn) && Valid(booted) && booted.files[MainFile].hidden && booted.files[SetupFile].hidden
    ensures Valid(r) && r.files[SetupFile].hidden && r.files[MainFile].hidden
    ensures AllCanonical(booted) ==> AllCanonical(r)
    ensures ReadFragment(fragment, parse).Err? ==> r == booted
    ensures ReadFragment(fragment, parse).Ok? ==>
              var w := ReadFragment(fragment, parse).value;
              var loaded := LoadedEntries(FileFields(w));
              && r.versions == MergeVersions(booted.versions, w.versions)
              && r.mainFile == MainFile && r.active == AppFile
              && r.files.Keys == booted.files.Keys + loaded.Keys
              && (forall p :: p in loaded && p != SetupFile ==> r.files[p] == File(loaded[p], p == MainFile))
              && forall p :: p in booted.files && p !in loaded && p != SetupFile ==> r.files[p] == booted.files[p]
  {
    var read := Deserialize(booted, fragment, parse);
    if ReadFragment(fragment, parse).Ok? then
      LoadThenSettle(booted, ReadFragment(fragment, parse).value, ComponentVersion(booted.versions), setupTemplate, cdn);
      Settle(ComponentVersion(booted.versions), read, setupTemplate, cdn).value
    else
      Settle(ComponentVersion(booted.versions), read, setupTemplate, cdn).value
  }

  /** Store creation: the bootstrap state, the watcher's immediate run, then
      `LoadHash`. */
  function Startup(versionsOption: Option<map<string, string>>, t: Templates, mainFile: string, active: string,
                   cdn: string, fragment: seq<CodeUnit>, parse: seq<CodeUnit> -> Option<Wire>): (r: Result<State, Cdn.CdnError>)
    ensures r.Ok? <==> Cdn.IsKnown(cdn)
    ensures r.Ok? ==> Valid(r.value) && AllCanonical(r.value)
    ensures r.Ok? ==> r.value.files[SetupFile].hidden && r.value.files[MainFile].hidden
    ensures r.Ok? && ReadFragment(fragment, parse).Err? ==>
              r.value.files.Keys == {TsConfigFile, AppFile, SetupFile, MainFile}
              && r.value.mainFile == mainFile && r.value.active == active
    ensures r.Ok? && ReadFragment(fragment, parse).Err? ==> r == Boot(versionsOption, t, mainFile, active, cdn)
    ensures r.Ok? && ReadFragment(fragment, parse).Ok? ==>
              var loaded := LoadedEntries(FileFields(ReadFragment(fragment, parse).value));
              var booted := Boot(versionsOption, t, mainFile, active, cdn).value;
              && r.value.versions == MergeVersions(Bootstrap(versionsOption, t, mainFile, active).versions,
                                                   ReadFragment(fragment, parse).value.versions)
              && r.value.mainFile == MainFile && r.value.active == AppFile
              && r.value.files.Keys == {TsConfigFile, AppFile, SetupFile, MainFile} + loaded.Keys
              && (forall p :: p in loaded && p != SetupFile ==> r.value.files[p] == File(loaded[p], p == MainFile))
              && forall p :: p in booted.files && p !in loaded && p != SetupFile ==> r.value.files[p] == booted.files[p]
  {
    var booted :- Boot(versionsOption, t, mainFile, active, cdn);
    Ok(LoadHash(booted, fragment, parse, t.setup, cdn))
  }

  /** Loading an object and letting the watcher run: the versions are the
      merge, the main and active files are reset, and every loaded file other
      than the setup file keeps its loaded code. */
  lemma LoadThenSettle(st: State, w: Wire, seen: Option<string>, setupTemplate: string, cdn: string)
    requires Valid(st) && Cdn.IsKnown(cdn)
    ensures var r := Settle(seen, Apply(st, w), setupTemplate, cdn).value;
      var loaded := LoadedEntries(FileFields(w));
      && r.versions == MergeVersions(st.versions, w.versions)
      && r.mainFile == MainFile && r.active == AppFile
      && r.files.Keys == st.files.Keys + loaded.Keys
      && (forall p :: p in loaded && p != SetupFile ==> r.files[p] == File(loaded[p], p == MainFile))
      && forall p :: p in st.files && p !in loaded && p != SetupFile ==>
           r.files[p] == File(st.files[p].code, st.files[p].hidden || p == MainFile)
  {
    var applied := Apply(st, w);
    var r := Settle(seen, applied, setupTemplate, cdn).value;
    assert forall p :: p in applied.files && p != SetupFile ==> r.files[p] == applied.files[p];
  }

  /** The setup file is current: the template with its first `$STYLE`
      replaced by the theme stylesheet URL of the version in force. */
  predicate SetupCurrent(st: State, before: string, after: string, cdn: string)
    requires Cdn.IsKnown(cdn)
  {
    SetupFile in st.files
    && st.files[SetupFile].code == before + ComponentFileUrl(cdn, EffectiveVersion(st.versions), ThemeStylesheet) + after
  }

  /** The watcher keeps the setup file current: a state whose setup file was
      current for the version the watcher last saw is current after it runs. */
  lemma SettleKeepsSetupCurrent(seen: Option<string>, st: State, before: string, after: string, cdn: string)
    requires Cdn.IsKnown(cdn)
    requires !Contains(before, StylePlaceholder) && (|before| > 0 ==> before[|before| - 1] !in StylePlaceholder)
    requires !Contains(EffectiveVersion(st.versions), "{path}")
    requires seen == ComponentVersion(st.versions) ==> SetupCurrent(st, before, after, cdn)
    ensures SetupCurrent(Settle(seen, st, before + StylePlaceholder + after, cdn).value, before, after, cdn)
  {
    if seen != ComponentVersion(st.versions) {
      RegeneratedSetup(st, before, after, cdn);
    }
  }

  lemma SetupNotLoaded(w: Wire)
    requires SetupFile !in w.fields && "setup.js" !in w.fields
    ensures SetupFile !in LoadedEntries(FileFields(w))
  {
    var fields := FileFields(w);
    assert fields.Keys <= w.fields.Keys;
    forall k | k in fields ensures WrapFilename(k) != SetupFile {
      assert k != SetupFile && k != "setup.js";
      assert (SourceDir + k)[|SourceDir|..] == k;
      assert SetupFile[|SourceDir|..] == "setup.js";
    }
  }

  /** The fragment conditions of `StartupSetupCurrent`, for a load into
      versions `versions`: the fragment supplies the setup file only when it
      also changes the component library's version (the watcher then
      overwrites it), and a version it supplies for the component library
      holds no `{path}`. */
  predicate SetupSettles(fragment: seq<CodeUnit>, parse: seq<CodeUnit> -> Option<Wire>, versions: map<string, string>) {
    ReadFragment(fragment, parse).Ok? ==>
      var w := ReadFragment(fragment, parse).value;
      && (SetupFile in w.fields || "setup.js" in w.fields ==>
            ComponentVersion(MergeVersions(versions, w.versions)) != ComponentVersion(versions))
      && (w.versions.Some? && ComponentLibrary in w.versions.value ==> !Contains(w.versions.value[ComponentLibrary], "{path}"))
  }

  /** Loading such a fragment leaves a current setup file current for the
      versions before the load. */
  lemma LoadKeepsSetup(st: State, fragment: seq<CodeUnit>, parse: seq<CodeUnit> -> Option<Wire>,
                       before: string, after: string, cdn: string)
    requires Cdn.IsKnown(cdn) && Valid(st) && SetupCurrent(st, before, after, cdn)
    requires !Contains(EffectiveVersion(st.versions), "{path}") && SetupSettles(fragment, parse, st.versions)
    ensures var loaded := Deserialize(st, fragment, parse);
      !Contains(EffectiveVersion(loaded.versions), "{path}")
      && (ComponentVersion(loaded.versions) == ComponentVersion(st.versions) ==> SetupCurrent(loaded, before, after, cdn))
  {
    if ReadFragment(fragment, parse).Ok? {
      var w := ReadFragment(fragment, parse).value;
      var loaded := Apply(st, w);
      assert Lookup(loaded.versions, ComponentLibrary) == Lookup(MergeVersions(st.versions, w.versions), ComponentLibrary);
      if ComponentVersion(loaded.versions) == ComponentVersion(st.versions) {
        SetupNotLoaded(w);
      }
    }
  }

  /** After store creation the setup file carries the stylesheet of the
      version in force, unless the fragment supplied the setup file without
      changing the component library's version: then its text stands. */
  lemma StartupSetupCurrent(versionsOption: Option<map<string, string>>, t: Templates, mainFile: string, active: string,
                            cdn: string, fragment: seq<CodeUnit>, parse: seq<CodeUnit> -> Option<Wire>,
                            before: string, after: string)
    requires Cdn.IsKnown(cdn) && t.setup == before + StylePlaceholder + after
    requires !Contains(before, StylePlaceholder) && (|before| > 0 ==> before[|before| - 1] !in StylePlaceholder)
    requires !Contains(EffectiveVersion(Bootstrap(versionsOption, t, mainFile, active).versions), "{path}")
    requires SetupSettles(fragment, parse, Bootstrap(versionsOption, t, mainFile, active).versions)
    ensures Startup(versionsOption, t, mainFile, active, cdn, fragment, parse).Ok?
    ensures SetupCurrent(Startup(versionsOption, t, mainFile, active, cdn, fragment, parse).value, before, after, cdn)
  {
    var booted := Boot(versionsOption, t, mainFile, active, cdn).value;
    RegeneratedSetup(Bootstrap(versionsOption, t, mainFile, active), before, after, cdn);
    LoadKeepsSetup(booted, fragment, parse, before, after, cdn);
    SettleKeepsSetupCurrent(ComponentVersion(booted.versions), Deserialize(booted, fragment, parse), before, after, cdn);
  }
}

=== FILE: text.dfy ===
/** String operations the playground relies on from JavaScript:
    `String.prototype.indexOf`, the first-occurrence `replace` with a string
    pattern, `startsWith`, `split(c)[0]` and the relational string comparison. */
module Text {
  import opened Common

  /** `pat` occurs in `s` starting at index `i`. */
  predicate OccursAt(s: string, pat: string, i: int) {
    0 <= i && i + |pat| <= |s| && s[i..i + |pat|] == pat
  }

  predicate Contains(s: string, pat: string) {
    exists i :: 0 <= i <= |s| && OccursAt(s, pat, i)
  }

  /** `i` is the smallest index at which `pat` occurs in `s`. */
  predicate FirstOccurrence(s: string, pat: string, i: int) {
    OccursAt(s, pat, i) && forall j :: 0 <= j < i ==> !OccursAt(s, pat, j)
  }

  lemma OccursAtShift(s: string, pat: string, i: int)
    requires |s| > 0 && 0 <= i
    ensures OccursAt(s[1..], pat, i) <==> OccursAt(s, pat, i + 1)
  {
    if i + 1 + |pat| <= |s| {
      assert s[1..][i..i + |pat|] == s[i + 1..i + 1 + |pat|];
    }
  }

  /** When `pat` is not a prefix of `s`, the occurrences of `pat` in `s` are
      those of `s[1..]`, shifted by one. */
  lemma TailOccurrences(s: string, pat: string)
    requires |pat| <= |s| && s[..|pat|] != pat
    ensures !Contains(s[1..], pat) ==> !Contains(s, pat)
    ensures forall i :: FirstOccurrence(s[1..], pat, i) ==> FirstOccurrence(s, pat, i + 1)
  {
    assert !OccursAt(s, pat, 0) by {
      assert s[0..|pat|] == s[..|pat|];
    }
    forall i | 1 <= i <= |s| ensures OccursAt(s, pat, i) <==> OccursAt(s[1..], pat, i - 1) {
      OccursAtShift(s, pat, i - 1);
    }
  }

  /** `s.indexOf(pat)`: the first occurrence, or `None` for JavaScript's -1. */
  function IndexOf(s: string, pat: string): (r: Option<nat>)
    ensures r.Some? ==> FirstOccurrence(s, pat, r.value)
    ensures r.None? ==> !Contains(s, pat)
    decreases |s|
  {
    if |s| < |pat| then None
    else if s[..|pat|] == pat then Some(0)
    else
      TailOccurrences(s, pat);
      match IndexOf(s[1..], pat)
      case None => None
      case Some(i) => Some(i + 1)
  }

  /** `s.replace(pat, rep)` for a string pattern: only the first occurrence of
      `pat` is replaced, and `s` is returned unchanged when `pat` is absent. */
  function ReplaceFirst(s: string, pat: string, rep: string): (r: string)
    ensures !Contains(s, pat) ==> r == s
    ensures forall i :: FirstOccurrence(s, pat, i) ==> r == s[..i] + rep + s[i + |pat|..]
  {
    match IndexOf(s, pat)
    case None => s
    case Some(i) => s[..i] + rep + s[i + |pat|..]
  }

  /** A string without the character that starts `pat` cannot contain `pat`. */
  lemma MissingLeadExcludes(s: string, pat: string)
    requires |pat| > 0 && pat[0] !in s
    ensures !Contains(s, pat)
  {
    forall i | 0 <= i ensures !OccursAt(s, pat, i) {
      if i + |pat| <= |s| {
        assert s[i..i + |pat|][0] == s[i];
      }
    }
  }

  /** An occurrence of `pat` in `x + [c] + y` lies within `x` or within `y`
      when the separator `c` is not a character of `pat`. */
  lemma JoinExcludes(x: string, c: char, y: string, pat: string)
    requires !Contains(x, pat) && !Contains(y, pat) && c !in pat
    ensures !Contains(x + [c] + y, pat)
  {
    var s := x + [c] + y;
    forall i | 0 <= i && i + |pat| <= |s| ensures !OccursAt(s, pat, i) {
      if i + |pat| <= |x| {
        assert s[i..i + |pat|] == x[i..i + |pat|];
        assert !OccursAt(x, pat, i);
      } else if i > |x| {
        assert s[i..i + |pat|] == y[i - |x| - 1..i - |x| - 1 + |pat|];
        assert !OccursAt(y, pat, i - |x| - 1);
      } else {
        assert s[i..i + |pat|][|x| - i] == c;
      }
    }
  }

  /** In `a + pat + b` the first occurrence of `pat` is right after `a`, when
      `a` does not contain `pat` and does not end in a character of `pat`. */
  lemma FirstOccurrenceAfter(a: string, pat: string, b: string)
    requires !Contains(a, pat)
    requires |a| > 0 ==> a[|a| - 1] !in pat
    ensures FirstOccurrence(a + pat + b, pat, |a|)
    ensures IndexOf(a + pat + b, pat) == Some(|a|)
  {
    var s := a + pat + b;
    assert s[|a|..|a| + |pat|] == pat;
    forall j | 0 <= j < |a| ensures !OccursAt(s, pat, j) {
      if j + |pat| <= |a| {
        assert s[j..j + |pat|] == a[j..j + |pat|];
        assert !OccursAt(a, pat, j);
      } else if j + |pat| <= |s| {
        assert s[j..j + |pat|][|a| - 1 - j] == a[|a| - 1];
      }
    }
    IndexOfFinds(s, pat, |a|);
  }

  /** Replacing in `a + pat + b` where the first occurrence is right after `a`. */
  lemma ReplaceAfter(a: string, pat: string, b: string, rep: string)
    requires !Contains(a, pat)
    requires |a| > 0 ==> a[|a| - 1] !in pat
    ensures ReplaceFirst(a + pat + b, pat, rep) == a + rep + b
  {
    var s := a + pat + b;
    FirstOccurrenceAfter(a, pat, b);
    assert s[..|a|] == a && s[|a| + |pat|..] == b;
  }

  /** `IndexOf` finds the first occurrence whenever there is one. */
  lemma IndexOfFinds(s: string, pat: string, i: int)
    requires FirstOccurrence(s, pat, i)
    ensures IndexOf(s, pat) == Some(i)
  {
    assert 0 <= i <= |s| && OccursAt(s, pat, i);
  }

  /** The JavaScript `a < b` on strings: lexicographic order in which a proper
      prefix comes first. */
  predicate LexLess(a: string, b: string)
    decreases |a|
  {
    if |b| == 0 then false
    else if |a| == 0 then true
    else if a[0] != b[0] then a[0] < b[0]
    else LexLess(a[1..], b[1..])
  }

  /** `a` and `b` agree before index `k` and `a` is smaller at `k`. */
  predicate SmallerAt(a: string, b: string, k: int) {
    0 <= k < |a| && k < |b| && a[..k] == b[..k] && a[k] < b[k]
  }

  /** `LexLess` is the usual dictionary order: either `a` is a proper prefix of
      `b`, or the first position where they differ holds a smaller character in `a`. */
  lemma {:induction false} LexLessMeaning(a: string, b: string)
    ensures LexLess(a, b) <==> (|a| < |b| && a == b[..|a|]) || exists k :: SmallerAt(a, b, k)
    decreases |a|
  {
    if |b| == 0 {
    } else if |a| == 0 {
    } else if a[0] != b[0] {
      if a[0] < b[0] {
        assert SmallerAt(a, b, 0);
      } else {
        forall k ensures !SmallerAt(a, b, k) {
          if 0 < k < |a| && k < |b| {
            assert a[..k][0] == a[0] && b[..k][0] == b[0];
          }
        }
      }
    } else {
      LexLessMeaning(a[1..], b[1..]);
      assert (|a| < |b| && a == b[..|a|]) <==> (|a[1..]| < |b[1..]| && a[1..] == b[1..][..|a[1..]|]) by {
        if |a| < |b| && a == b[..|a|] {
          assert a[1..] == b[..|a|][1..];
        }
        if |a[1..]| < |b[1..]| && a[1..] == b[1..][..|a[1..]|] {
          assert a == [a[0]] + a[1..] && b[..|a|] == [b[0]] + b[1..][..|a[1..]|];
        }
      }
      assert !SmallerAt(a, b, 0);
      forall k | 0 < k && SmallerAt(a, b, k) ensures SmallerAt(a[1..], b[1..], k - 1) {
        assert a[1..][..k - 1] == a[..k][1..] && b[1..][..k - 1] == b[..k][1..];
      }
      forall k | SmallerAt(a[1..], b[1..], k) ensures SmallerAt(a, b, k + 1) {
        assert a[..k + 1] == [a[0]] + a[1..][..k] && b[..k + 1] == [b[0]] + b[1..][..k];
      }
    }
  }

  /** `s.split(c)[0]`: the longest prefix of `s` without `c`. */
  function PrefixBefore(s: string, c: char): (r: string)
    ensures r <= s && c !in r
    ensures |r| < |s| ==> s[|r|] == c
    decreases |s|
  {
    if |s| == 0 || s[0] == c then ""
    else [s[0]] + PrefixBefore(s[1..], c)
  }
}

=== FILE: utf8.dfy ===
/** UTF-8 (section 3 of RFC 3629) between JavaScript strings, which are
    sequences of UTF-16 code units, and bytes. This is what the pair
    `unescape(encodeURIComponent(s))` / `decodeURIComponent(escape(b))`
    computes: the first fails on a lone surrogate, the second on bytes that
    are not well-formed UTF-8. */
module Utf8 {
  import opened Common

  predicate IsHighSurrogate(u: int) { 0xD800 <= u < 0xDC00 }

  predicate IsLowSurrogate(u: int) { 0xDC00 <= u < 0xE000 }

  /** A Unicode scalar value: a code point that is not a surrogate. */
  type ScalarValue = cp: int | 0 <= cp < 0x11_0000 && !(0xD800 <= cp < 0xE000)

  /** Well-formed UTF-16: every high surrogate is followed by a low one and
      every low surrogate follows a high one. */
  predicate WellFormed(s: seq<CodeUnit>) {
    forall i :: 0 <= i < |s| ==> PairedAt(s, i)
  }

  /** The code unit at `i` is not half of a broken surrogate pair. */
  predicate PairedAt(s: seq<CodeUnit>, i: int)
    requires 0 <= i < |s|
  {
    && (IsHighSurrogate(s[i]) ==> i + 1 < |s| && IsLowSurrogate(s[i + 1]))
    && (IsLowSurrogate(s[i]) ==> 0 < i && IsHighSurrogate(s[i - 1]))
  }

  /** The supplementary code point a surrogate pair stands for. */
  function CombineSurrogates(hi: CodeUnit, lo: CodeUnit): (cp: ScalarValue)
    requires IsHighSurrogate(hi) && IsLowSurrogate(lo)
    ensures 0x1_0000 <= cp
  {
    0x1_0000 + (hi - 0xD800) * 0x400 + (lo - 0xDC00)
  }

  /** The UTF-16 form of one scalar value: itself, or a surrogate pair. */
  function CodeUnits(cp: ScalarValue): (r: seq<CodeUnit>)
    ensures cp < 0x1_0000 ==> r == [cp]
    ensures 0x1_0000 <= cp ==>
              |r| == 2 && IsHighSurrogate(r[0]) && IsLowSurrogate(r[1]) && CombineSurrogates(r[0], r[1]) == cp
  {
    if cp < 0x1_0000 then [cp]
    else [0xD800 + (cp - 0x1_0000) / 0x400, 0xDC00 + (cp - 0x1_0000) % 0x400]
  }

  lemma CombineThenSplit(hi: CodeUnit, lo: CodeUnit)
    requires IsHighSurrogate(hi) && IsLowSurrogate(lo)
    ensures CodeUnits(CombineSurrogates(hi, lo)) == [hi, lo]
  {
  }

  predicate IsContinuation(b: Byte) { 0x80 <= b < 0xC0 }

  /** The shortest UTF-8 form of one scalar value: 1 to 4 bytes. */
  function EncodeScalar(cp: ScalarValue): (r: seq<Byte>)
    ensures 1 <= |r| <= 4
  {
    if cp < 0x80 then [cp]
    else if cp < 0x800 then [0xC0 + cp / 64, 0x80 + cp % 64]
    else if cp < 0x1_0000 then [0xE0 + cp / 4096, 0x80 + (cp / 64) % 64, 0x80 + cp % 64]
    else [0xF0 + cp / 262144, 0x80 + (cp / 4096) % 64, 0x80 + (cp / 64) % 64, 0x80 + cp % 64]
  }

  /** `unescape(encodeURIComponent(s))` as bytes; `None` where
      `encodeURIComponent` throws, on a lone surrogate. */
  function Encode(s: seq<CodeUnit>): (r: Option<seq<Byte>>)
    decreases |s|
  {
    if |s| == 0 then Some([])
    else if !IsHighSurrogate(s[0]) && !IsLowSurrogate(s[0]) then
      var rest :- Encode(s[1..]);
      Some(EncodeScalar(s[0]) + rest)
    else if IsHighSurrogate(s[0]) && 2 <= |s| && IsLowSurrogate(s[1]) then
      var rest :- Encode(s[2..]);
      Some(EncodeScalar(CombineSurrogates(s[0], s[1])) + rest)
    else None
  }

  /** The scalar value at the front of `b` and the number of bytes it takes,
      if `b` starts with a well-formed UTF-8 sequence: no overlong form, no
      surrogate, nothing above U+10FFFF. */
  function DecodeFirst(b: seq<Byte>): (r: Option<(ScalarValue, nat)>)
    requires |b| > 0
    ensures r.Some? ==> 1 <= r.value.1 <= |b|
  {
    var b0: int := b[0];
    if b0 < 0x80 then Some((b0, 1))
    else if 0xC0 <= b0 < 0xE0 && 2 <= |b| && IsContinuation(b[1]) then
      var cp := (b0 - 0xC0) * 64 + (b[1] as int - 0x80);
      if 0x80 <= cp then Some((cp, 2)) else None
    else if 0xE0 <= b0 < 0xF0 && 3 <= |b| && IsContinuation(b[1]) && IsContinuation(b[2]) then
      var cp := (b0 - 0xE0) * 4096 + (b[1] as int - 0x80) * 64 + (b[2] as int - 0x80);
      if 0x800 <= cp && !(0xD800 <= cp < 0xE000) then Some((cp, 3)) else None
    else if 0xF0 <= b0 < 0xF8 && 4 <= |b| && IsContinuation(b[1]) && IsContinuation(b[2]) && IsContinuation(b[3]) then
      var cp := (b0 - 0xF0) * 262144 + (b[1] as int - 0x80) * 4096 + (b[2] as int - 0x80) * 64 + (b[3] as int - 0x80);
      if 0x1_0000 <= cp < 0x11_0000 then Some((cp, 4)) else None
    else None
  }

  /** `decodeURIComponent(escape(b))`; `None` where it throws a URIError. */
  function Decode(b: seq<Byte>): (r: Option<seq<CodeUnit>>)
    decreases |b|
  {
    if |b| == 0 then Some([])
    else
      var first :- DecodeFirst(b);
      var rest :- Decode(b[first.1..]);
      Some(CodeUnits(first.0) + rest)
  }

  /** A non-surrogate in front leaves well-formedness to the rest. */
  lemma WellFormedAfterScalar(u: CodeUnit, s: seq<CodeUnit>)
    requires !IsHighSurrogate(u) && !IsLowSurrogate(u)
    ensures WellFormed([u] + s) <==> WellFormed(s)
  {
    var t := [u] + s;
    if WellFormed(t) {
      forall j | 0 <= j < |s| ensures PairedAt(s, j) {
        assert PairedAt(t, j + 1);
      }
    }
    if WellFormed(s) {
      forall i | 0 <= i < |t| ensures PairedAt(t, i) {
        if i > 0 {
          assert PairedAt(s, i - 1);
        }
      }
    }
  }

  /** A surrogate pair in front leaves well-formedness to the rest. */
  lemma WellFormedAfterPair(hi: CodeUnit, lo: CodeUnit, s: seq<CodeUnit>)
    requires IsHighSurrogate(hi) && IsLowSurrogate(lo)
    ensures WellFormed([hi, lo] + s) <==> WellFormed(s)
  {
    var t := [hi, lo] + s;
    if WellFormed(t) {
      forall j | 0 <= j < |s| ensures PairedAt(s, j) {
        assert PairedAt(t, j + 2);
      }
    }
    if WellFormed(s) {
      forall i | 0 <= i < |t| ensures PairedAt(t, i) {
        if i > 1 {
          assert PairedAt(s, i - 2);
        }
      }
    }
  }

  /** `encodeURIComponent` succeeds exactly on well-formed UTF-16. */
  lemma {:induction false} EncodeSucceedsIffWellFormed(s: seq<CodeUnit>)
    ensures Encode(s).Some? <==> WellFormed(s)
    decreases |s|
  {
    if |s| == 0 {
    } else if !IsHighSurrogate(s[0]) && !IsLowSurrogate(s[0]) {
      EncodeSucceedsIffWellFormed(s[1..]);
      WellFormedAfterScalar(s[0], s[1..]);
      assert s == [s[0]] + s[1..];
    } else if IsHighSurrogate(s[0]) && 2 <= |s| && IsLowSurrogate(s[1]) {
      EncodeSucceedsIffWellFormed(s[2..]);
      WellFormedAfterPair(s[0], s[1], s[2..]);
      assert s == [s[0], s[1]] + s[2..];
    } else {
      assert !PairedAt(s, 0);
    }
  }

  lemma ThreeDigits(cp: int)
    requires 0 <= cp < 0x1_0000
    ensures cp == (cp / 4096) * 4096 + ((cp / 64) % 64) * 64 + cp % 64
  {
    assert cp == (cp / 64) * 64 + cp % 64;
    assert cp / 64 == (cp / 4096) * 64 + (cp / 64) % 64;
  }

  lemma FourDigits(cp: int)
    requires 0 <= cp
    ensures cp == (cp / 262144) * 262144 + ((cp / 4096) % 64) * 4096 + ((cp / 64) % 64) * 64 + cp % 64
  {
    assert cp == (cp / 64) * 64 + cp % 64;
    assert cp / 64 == (cp / 4096) * 64 + (cp / 64) % 64;
    assert cp / 4096 == (cp / 262144) * 64 + (cp / 4096) % 64;
  }

  lemma DecodeFirstOfThree(cp: ScalarValue, rest: seq<Byte>)
    requires 0x800 <= cp < 0x1_0000
    ensures DecodeFirst(EncodeScalar(cp) + rest) == Some((cp, 3))
  {
    var b := EncodeScalar(cp) + rest;
    ThreeDigits(cp);
    assert b[0] == 0xE0 + cp / 4096 && b[1] == 0x80 + (cp / 64) % 64 && b[2] == 0x80 + cp % 64;
  }

  lemma DecodeFirstOfFour(cp: ScalarValue, rest: seq<Byte>)
    requires 0x1_0000 <= cp
    ensures DecodeFirst(EncodeScalar(cp) + rest) == Some((cp, 4))
  {
    var b := EncodeScalar(cp) + rest;
    FourDigits(cp);
    assert b[0] == 0xF0 + cp / 262144 && b[1] == 0x80 + (cp / 4096) % 64;
    assert b[2] == 0x80 + (cp / 64) % 64 && b[3] == 0x80 + cp % 64;
  }

  /** The bytes of one scalar value decode back to it, whatever follows. */
  lemma DecodeFirstOfScalar(cp: ScalarValue, rest: seq<Byte>)
    ensures DecodeFirst(EncodeScalar(cp) + rest) == Some((cp, |EncodeScalar(cp)|))
  {
    var b := EncodeScalar(cp) + rest;
    if cp < 0x80 {
    } else if cp < 0x800 {
      assert b[0] == 0xC0 + cp / 64 && b[1] == 0x80 + cp % 64;
    } else if cp < 0x1_0000 {
      DecodeFirstOfThree(cp, rest);
    } else {
      DecodeFirstOfFour(cp, rest);
    }
  }

  /** Decoding proceeds one scalar value at a time. */
  lemma DecodeAfterScalar(cp: ScalarValue, rest: seq<Byte>)
    requires Decode(rest).Some?
    ensures Decode(EncodeScalar(cp) + rest) == Some(CodeUnits(cp) + Decode(rest).value)
  {
    var b := EncodeScalar(cp) + rest;
    DecodeFirstOfScalar(cp, rest);
    assert b[|EncodeScalar(cp)|..] == rest;
  }

  /** Every well-formed string survives `encodeURIComponent` followed by
      `decodeURIComponent`. */
  lemma {:induction false} DecodeEncode(s: seq<CodeUnit>)
    requires WellFormed(s)
    ensures Encode(s).Some? && Decode(Encode(s).value) == Some(s)
    decreases |s|
  {
    if |s| == 0 {
    } else if !IsHighSurrogate(s[0]) && !IsLowSurrogate(s[0]) {
      assert s == [s[0]] + s[1..];
      WellFormedAfterScalar(s[0], s[1..]);
      DecodeEncode(s[1..]);
      DecodeAfterScalar(s[0], Encode(s[1..]).value);
    } else {
      assert PairedAt(s, 0);
      assert s == [s[0], s[1]] + s[2..];
      WellFormedAfterPair(s[0], s[1], s[2..]);
      DecodeEncode(s[2..]);
      DecodeAfterScalar(CombineSurrogates(s[0], s[1]), Encode(s[2..]).value);
      CombineThenSplit(s[0], s[1]);
    }
  }

  /** Whatever `decodeURIComponent` produces is well-formed UTF-16. */
  lemma {:induction false} DecodeWellFormed(b: seq<Byte>)
    requires Decode(b).Some?
    ensures WellFormed(Decode(b).value)
    decreases |b|
  {
    if |b| > 0 {
      var first := DecodeFirst(b).value;
      var rest := b[first.1..];
      DecodeWellFormed(rest);
      var units := CodeUnits(first.0);
      if first.0 < 0x1_0000 {
        WellFormedAfterScalar(first.0, Decode(rest).value);
      } else {
        WellFormedAfterPair(units[0], units[1], Decode(rest).value);
        assert units == [units[0], units[1]];
      }
    }
  }

  /** On ASCII text, UTF-8 is the identity: one byte per character. */
  lemma {:induction false} EncodeAscii(s: seq<CodeUnit>)
    requires forall i :: 0 <= i < |s| ==> s[i] < 0x80
    ensures Encode(s) == Some(s)
    decreases |s|
  {
    if |s| > 0 {
      EncodeAscii(s[1..]);
      assert s == [s[0]] + s[1..];
    }
  }

  lemma TwoByteForm(b0: int, b1: int)
    requires 0xC0 <= b0 < 0xE0 && 0x80 <= b1 < 0xC0 && 0x80 <= (b0 - 0xC0) * 64 + (b1 - 0x80)
    ensures EncodeScalar((b0 - 0xC0) * 64 + (b1 - 0x80)) == [b0, b1]
  {
  }

  lemma ThreeByteForm(b0: int, b1: int, b2: int, cp: ScalarValue)
    requires 0xE0 <= b0 < 0xF0 && 0x80 <= b1 < 0xC0 && 0x80 <= b2 < 0xC0
    requires cp == (b0 - 0xE0) * 4096 + (b1 - 0x80) * 64 + (b2 - 0x80) && 0x800 <= cp
    ensures EncodeScalar(cp) == [b0, b1, b2]
  {
    assert cp / 64 == (b0 - 0xE0) * 64 + (b1 - 0x80);
  }

  lemma FourByteForm(b0: int, b1: int, b2: int, b3: int, cp: ScalarValue)
    requires 0xF0 <= b0 < 0xF8 && 0x80 <= b1 < 0xC0 && 0x80 <= b2 < 0xC0 && 0x80 <= b3 < 0xC0
    requires cp == (b0 - 0xF0) * 262144 + (b1 - 0x80) * 4096 + (b2 - 0x80) * 64 + (b3 - 0x80) && 0x1_0000 <= cp
    ensures EncodeScalar(cp) == [b0, b1, b2, b3]
  {
    assert cp / 64 == (b0 - 0xF0) * 4096 + (b1 - 0x80) * 64 + (b2 - 0x80);
    assert cp / 4096 == (b0 - 0xF0) * 64 + (b1 - 0x80);
  }

  /** A well-formed sequence at the front of `b` is exactly the encoding of
      the scalar value it decodes to: UTF-8 has one form per value. */
  lemma EncodeDecodedFirst(b: seq<Byte>)
    requires |b| > 0 && DecodeFirst(b).Some?
    ensures EncodeScalar(DecodeFirst(b).value.0) == b[..DecodeFirst(b).value.1]
  {
    var cp := DecodeFirst(b).value.0;
    if b[0] < 0x80 {
    } else if b[0] < 0xE0 {
      TwoByteForm(b[0], b[1]);
      assert b[..2] == [b[0], b[1]];
    } else if b[0] < 0xF0 {
      ThreeByteForm(b[0], b[1], b[2], cp);
      assert b[..3] == [b[0], b[1], b[2]];
    } else {
      FourByteForm(b[0], b[1], b[2], b[3], cp);
      assert b[..4] == [b[0], b[1], b[2], b[3]];
    }
  }

  /** Encoding proceeds one scalar value at a time. */
  lemma EncodeAfterScalar(cp: ScalarValue, rest: seq<CodeUnit>)
    requires Encode(rest).Some?
    ensures Encode(CodeUnits(cp) + rest) == Some(EncodeScalar(cp) + Encode(rest).value)
  {
    var s := CodeUnits(cp) + rest;
    if cp < 0x1_0000 {
      assert s[1..] == rest;
    } else {
      assert s[2..] == rest;
    }
  }

  lemma DecodeStep(b: seq<Byte>)
    requires |b| > 0 && Decode(b).Some?
    ensures DecodeFirst(b).Some?
    ensures Decode(b[DecodeFirst(b).value.1..]).Some?
    ensures Decode(b).value == CodeUnits(DecodeFirst(b).value.0) + Decode(b[DecodeFirst(b).value.1..]).value
  {
  }

  /** Decoding loses nothing: whatever `decodeURIComponent` accepts is the
      encoding of what it returns. */
  lemma {:induction false} EncodeDecode(b: seq<Byte>)
    requires Decode(b).Some?
    ensures Encode(Decode(b).value) == Some(b)
    decreases |b|
  {
    if |b| > 0 {
      DecodeStep(b);
      var cp := DecodeFirst(b).value.0;
      var n := DecodeFirst(b).value.1;
      EncodeDecode(b[n..]);
      EncodeDecodedFirst(b);
      EncodeAfterPrefix(b, cp, n, Decode(b[n..]).value);
    }
  }

  lemma EncodeAfterPrefix(b: seq<Byte>, cp: ScalarValue, n: nat, tail: seq<CodeUnit>)
    requires n <= |b| && EncodeScalar(cp) == b[..n] && Encode(tail) == Some(b[n..])
    ensures Encode(CodeUnits(cp) + tail) == Some(b)
  {
    EncodeAfterScalar(cp, tail);
    assert b == b[..n] + b[n..];
  }


}
